=== FILE: README.md ===
# Wallet manager: indexes, lookups, and block apply/revert

This project models the wallet-state engine of the node's `core-state`
package, the `WalletManager` class. It has three parts.

1. **The index registry.** This is a set of named indexes from lookup key to
   wallet.
   - The constructor registers six standard indexers: address, public key,
     username (delegates only), resignation (resigned delegates only), HTLC
     lock ids and IPFS hashes.
   - `registerIndex`, `unregisterIndex` and `getIndex` manage the registry.
   - `reindex` and `index` run every indexer on a wallet, and `reset`
     empties every index.
2. **The lookup surface.** This covers `findBy*`, `has*`, `getNonce` and
   `forget*`. `findByAddress` creates a missing wallet. `findByPublicKey`
   attaches the key to the wallet of the derived address.
3. **The block state machine.**
   - `applyTransaction` and `revertTransaction` each call a type handler,
     resolve an HTLC claim's lock, look up sender and recipient, and
     notify consensus.
   - `applyBlock` resolves or creates the generator, applies the
     transactions in order, and credits the generator and its voted
     delegate. If anything fails, it reverts what was applied, last first.
   - `revertBlock` reverts the transactions last first. If one fails, it
     re-applies the ones already reverted.

## How it is modelled

- **Wallets.** Wallets are records in an arena `map<Handle, Wallet>` with a
  fresh-handle counter.
  - An index maps a key to a handle. Two entries with the same handle alias
    one wallet, as two references to one JavaScript object do.
  - `new Wallet(address)` is a fresh handle.
- **Errors.** A thrown error is a `Failure` or `Err`. This includes errors
  from `getIndex` on an unregistered name and the `TypeError` of
  dereferencing `undefined`. `app.forceExit` is the `Halted` outcome.
- **Consensus.** Each `consensus.addTransaction` call appends a
  `Notification` to a log.
- **Collaborators.** Code outside this file is a parameter `Env`:
  - address derivation from a public key;
  - the handler registry, with each handler's `apply` and `revert`;
  - `Wallet.applyBlock`.
- **Empty strings.** The empty string stands for JavaScript's falsy or
  missing key.
- **Invariants.** The state invariant `Wf` has three parts: every index
  entry refers to an allocated wallet; the registration order lists exactly
  the registered names; and the six standard indexes are present.
- **Sweeps.** The two loops of a block are one generic *sweep*: a sequence of
  transaction steps in array order that stops at the first error. The
  rollback lemmas are proved once for any pair of step functions where one
  undoes the other, and then instantiated with the manager's
  `applyTransaction` and `revertTransaction`.

Some behaviour of the code differs from what one might expect of it, and the
model keeps the code's behaviour:

- `revertBlock` does not take back the generator's credit or the vote-balance
  increase of the delegate it voted for. So `revertBlock` after `applyBlock`
  is not the identity on the ledger, even for an empty block. One might
  expect reverting a block to be the exact inverse of applying it; the
  code's revert is not. `Blocks.RevertBlockKeepsCredit` exhibits the difference.
- At height 1, an unknown generator is a brand-new wallet run through every
  indexer. If the address index already held the derived address, that entry
  now refers to the new wallet and the old wallet is orphaned
  (`Blocks.ResolveGeneratorGenesis`).
- An error from the generator lookup in `applyBlock` escapes before the
  `try`, so `currentBlock` stays set. That lookup can throw only after the
  address or public-key index has been unregistered (`Blocks.ApplyBlock`). A missing generator at a later height
  halts the process after `currentBlock` is set in `applyBlock`, but before
  it is set in `revertBlock`.
- If `Wallet.applyBlock` throws after every transaction went through, the
  transactions are reverted, last first, and the ledger is the one before
  the loop (`Blocks.SettleCreditThrows`, `Blocks.ApplyBlockCreditThrows`).
  If the vote-balance update throws instead, the transactions are reverted
  too, but the generator's credit and any wallet the lookup created stay.
- `revertTransaction` resolves an HTLC claim's lock after the handler has
  reverted. If no wallet then holds the lock id, the claim fails after the
  handler's changes took effect, so that revert is not atomic
  (`Transactions.RevertTransactionAtomic`).
- `revertTransaction` looks up the sender and the recipient before the
  handler runs. A party that was not indexed gets a wallet and index
  entries, and these stay when the handler then refuses
  (`Transactions.RevertTransactionKeepsLookups`).
- The rollback in `applyBlock` reverts each applied transaction, but the
  manager's revert does not remove wallets. A wallet that an applied
  transaction created stays in the arena after the rollback, and so do its
  index entries. This happens, for example, on a first transfer to a new
  address. The atomicity results below assume handlers whose revert undoes
  their apply exactly, and such handlers create no wallet
  (`Transactions.UndoableApplyCreatesNoWallet`).
  The rollback of `revertBlock`
  restores the ledger only for handlers whose revert re-opens the lock.

## Model

All source paths are relative to the repository root.

| member | source | states |
|---|---|---|
| WalletIndexes.IndexWallet | packages/core-state/src/wallets/wallet-manager.ts:20-60 | indexing a wallet sets every key its indexer derives to that wallet; other keys keep their entries, and stale entries are not removed |
| WalletIndexes.IndexWalletIdempotent | packages/core-state/src/wallets/wallet-manager.ts:20-60 | running an indexer a second time on an unchanged wallet adds nothing |
| WalletIndexes.IndexWalletStandard | packages/core-state/src/wallets/wallet-manager.ts:20-60 | address and public key are indexed only when present; the username only for delegates; the resignation only for resigned delegates; one entry per lock id and per IPFS hash; an indexer that derives nothing leaves its index unchanged |
| Ledgers.RegisterIndex | packages/core-state/src/wallets/wallet-manager.ts:63-69 | fails with the already-registered error and changes nothing exactly when the name is registered; otherwise it adds one new empty index with that indexer, last in order, and every other index, wallet and handle stays |
| Ledgers.UnregisterIndex | packages/core-state/src/wallets/wallet-manager.ts:71-77 | fails with not-found exactly when the name is unknown; otherwise only that name is removed, the other indexes stay, and for distinct names the others keep their order: the name is cut out where it stood |
| Ledgers.GetIndex | packages/core-state/src/wallets/wallet-manager.ts:79-85 | succeeds exactly for registered names, with that index; unknown names fail with not-found |
| Ledgers.RegisterUnregisterRoundTrip | packages/core-state/src/wallets/wallet-manager.ts:63-77 | registering a fresh name and unregistering it again restores the registry, including the order of the other names |
| Ledgers.RegisterAllFresh | packages/core-state/src/wallets/wallet-manager.ts:63-69 | registering distinct fresh names in turn never throws; they are appended in order, each with an empty index |
| Ledgers.New | packages/core-state/src/wallets/wallet-manager.ts:17-61 | a new manager has exactly the six standard indexes, in order, with their indexers; all are empty and no wallet exists |
| Ledgers.NewRegistersStandard | packages/core-state/src/wallets/wallet-manager.ts:17-61 | the constructor equals `reset()` on a manager without indexes followed by the six registrations in order, and none of them throws |
| Ledgers.ReindexEach | packages/core-state/src/wallets/wallet-manager.ts:210-214 | every listed index runs its indexer on the wallet once in effect, even if listed twice; unlisted indexes are untouched |
| Ledgers.Reindex | packages/core-state/src/wallets/wallet-manager.ts:210-214 | every registered index becomes the result of indexing the wallet; wallets, names and indexers stay, and no entry is lost |
| Ledgers.ReindexIdempotent | packages/core-state/src/wallets/wallet-manager.ts:210-214 | a second `reindex` of an unchanged wallet changes no index |
| Ledgers.ReindexIdentity | packages/core-state/src/wallets/wallet-manager.ts:20-30 | `reindex` enters the wallet's address and public key when present and leaves those indexes alone otherwise |
| Ledgers.ReindexDelegates | packages/core-state/src/wallets/wallet-manager.ts:32-42 | the username is entered only for delegates; the resignation index gets the username only for resigned delegates |
| Ledgers.ReindexLocksAndHashes | packages/core-state/src/wallets/wallet-manager.ts:44-60 | each HTLC lock id and each IPFS hash of the wallet gets its own entry referring to it |
| Ledgers.Index | packages/core-state/src/wallets/wallet-manager.ts:204-208 | indexing a list of wallets keeps the arena, the registry and every existing key |
| Ledgers.IndexCovers | packages/core-state/src/wallets/wallet-manager.ts:204-208 | after `index(wallets)`, every key any listed wallet derives for a registered index is in that index |
| Ledgers.IndexKeepsUnderived | packages/core-state/src/wallets/wallet-manager.ts:204-208 | a key that no listed wallet derives for an index keeps the entry it had, or stays absent |
| Ledgers.IndexLastWins | packages/core-state/src/wallets/wallet-manager.ts:204-208 | a key refers afterwards to the last listed wallet that derives it, since each `reindex` overwrites the entries it sets |
| Ledgers.Reset | packages/core-state/src/wallets/wallet-manager.ts:365-369 | every index is emptied; the registered names, their indexers and the wallets stay |
| Lookups.ScanFrom | packages/core-state/src/wallets/wallet-manager.ts:144-151 | the scan stops at the first listed name that is unregistered (not-found) or holds the key (that wallet); it yields undefined exactly when every name is registered and misses the key |
| Lookups.FindByIndex | packages/core-state/src/wallets/wallet-manager.ts:139-152 | returns the wallet of the first listed index holding the key, and undefined exactly when none does; it throws only for an unregistered name the scan reaches; it is read-only |
| Lookups.FindByUsername | packages/core-state/src/wallets/wallet-manager.ts:135-137 | the username index's entry for the name; it fails only when that index is not registered |
| Lookups.FindById | packages/core-state/src/wallets/wallet-manager.ts:103-112 | undefined exactly when no registered index holds the id; otherwise the entry of the first index in registration order that holds it |
| Lookups.Has | packages/core-state/src/wallets/wallet-manager.ts:154-162 | true exactly when some registered index holds the key |
| Lookups.HasByIndex | packages/core-state/src/wallets/wallet-manager.ts:176-178 | membership of the key in the named index; fails with not-found exactly for an unregistered name |
| Lookups.HasByAddress | packages/core-state/src/wallets/wallet-manager.ts:164-166 | membership in the address index |
| Lookups.HasByPublicKey | packages/core-state/src/wallets/wallet-manager.ts:168-170 | membership in the public-key index |
| Lookups.HasByUsername | packages/core-state/src/wallets/wallet-manager.ts:172-174 | membership in the username index |
| Lookups.FindByAddress | packages/core-state/src/wallets/wallet-manager.ts:114-121 | an empty or already known address changes nothing and yields its entry; an unknown non-empty address gets a fresh wallet entered only in the address index |
| Lookups.FindByAddressIdempotent | packages/core-state/src/wallets/wallet-manager.ts:114-121 | a second `findByAddress` of the same address changes nothing and yields the same wallet |
| Lookups.FindByAddressResolves | packages/core-state/src/wallets/wallet-manager.ts:114-121 | for a non-empty address the result is an allocated wallet, and it is the one the address index now holds |
| Lookups.FindByPublicKey | packages/core-state/src/wallets/wallet-manager.ts:123-133 | an empty or known key changes nothing and yields its entry; an unknown key fails only when the address index is missing, and then with not-found for that index; the registry is kept |
| Lookups.FindByPublicKeyAttaches | packages/core-state/src/wallets/wallet-manager.ts:123-133 | for an unseen key, the key entry and the derived address's entry refer to one wallet, which carries the key; that wallet is the existing one for a known address or a fresh one otherwise; nothing else changes |
| Lookups.FindByPublicKeyIdempotent | packages/core-state/src/wallets/wallet-manager.ts:123-133 | a second `findByPublicKey` with the same key changes nothing and yields the same wallet |
| Lookups.GetNonce | packages/core-state/src/wallets/wallet-manager.ts:180-186 | zero for a key the public-key index does not hold, and otherwise the nonce of the wallet it holds |
| Lookups.GetNonceCreatesNothing | packages/core-state/src/wallets/wallet-manager.ts:180-186 | the lookup `getNonce` makes for a known key leaves the state unchanged |
| Lookups.ForgetByIndex | packages/core-state/src/wallets/wallet-manager.ts:200-202 | only the key leaves the named index; the wallets and every other entry and index stay; an unregistered name fails with not-found |
| Lookups.ForgetByAddress | packages/core-state/src/wallets/wallet-manager.ts:188-190 | afterwards the address index does not hold the address; its other entries, every other index, the wallets and the registry stay |
| Lookups.ForgetByPublicKey | packages/core-state/src/wallets/wallet-manager.ts:192-194 | afterwards the public-key index does not hold the key; its other entries, every other index, the wallets and the registry stay |
| Lookups.ForgetByUsername | packages/core-state/src/wallets/wallet-manager.ts:196-198 | afterwards the username index does not hold the name; its other entries, every other index, the wallets and the registry stay |
| Lookups.ForgetUndoesFreshFindByAddress | packages/core-state/src/wallets/wallet-manager.ts:188-202 | forgetting an address that `findByAddress` has just created restores every index; only the orphaned wallet record remains |
| Transactions.ResolveLock | packages/core-state/src/wallets/wallet-manager.ts:315-322 | non-claims have no lock; a claim whose lock id no wallet holds throws; otherwise the result is the wallet holding the lock id and its lock record, if that wallet still lists it |
| Transactions.ApplyTransaction | packages/core-state/src/wallets/wallet-manager.ts:307-331 | an unknown type throws with no change; a success reports this transaction with `revert = false` and the lock resolved on the state BEFORE the handler; the registry is kept |
| Transactions.RevertTransaction | packages/core-state/src/wallets/wallet-manager.ts:333-359 | an unknown type throws with no change; a success reports this transaction with `revert = true` and the lock resolved on the state AFTER the handler |
| Transactions.ApplyTransactionAtomic | packages/core-state/src/wallets/wallet-manager.ts:307-331 | a failed apply changes nothing; it succeeds exactly when the type is known, the lock resolves and the handler accepts; a refusing handler's reason is the error |
| Transactions.ApplyTransactionParties | packages/core-state/src/wallets/wallet-manager.ts:324-327 | sender and recipient are looked up on the state the handler left, and create nothing when the handler indexed them |
| Transactions.RevertTransactionParties | packages/core-state/src/wallets/wallet-manager.ts:340-343 | sender and recipient are looked up before the handler reverts; with them indexed, a refusing handler leaves the state unchanged |
| Transactions.RevertTransactionAtomic | packages/core-state/src/wallets/wallet-manager.ts:343-354 | with the sender and recipient already indexed, a failed revert changes nothing, except an HTLC claim whose lock no wallet holds after the handler ran: that one fails with the handler's changes in place |
| Transactions.RevertTransactionKeepsLookups | packages/core-state/src/wallets/wallet-manager.ts:340-343 | the second exception: the sender and recipient lookups before the handler change the ledger exactly when a party was not indexed, and a refusing handler leaves those changes in place |
| Transactions.UndoableApplyCreatesNoWallet | packages/core-state/src/wallets/wallet-manager.ts:307-331 | under the hypotheses the atomicity results use (`revert` undoes `apply`, `apply` indexes the parties), a successful apply, the handler's and the manager's, leaves the set of wallets unchanged |
| Transactions.RevertMirrorsApply | packages/core-state/src/wallets/wallet-manager.ts:307-359 | when the handler's revert undoes its apply, reverting right after applying restores the state and sends the same notification with the flag flipped |
| Transactions.ApplyMirrorsRevert | packages/core-state/src/wallets/wallet-manager.ts:307-359 | when the handler's apply undoes its revert and the parties are indexed, applying right after reverting restores the state and sends the flipped notification |
| Sweeps.Replay | packages/core-state/src/wallets/wallet-manager.ts:247-250 | a sweep sends one notification per transaction it got through, and it stops short only with an error |
| Sweeps.ReplayKeeps | packages/core-state/src/wallets/wallet-manager.ts:247-250 | a sweep keeps the wallets and the index registry |
| Sweeps.ReplayReports | packages/core-state/src/wallets/wallet-manager.ts:247-250 | notification i of a sweep is about transaction i, with the sweep's direction |
| Sweeps.ReplayAppend | packages/core-state/src/wallets/wallet-manager.ts:247-250 | a sweep over `xs + ys` that gets through `xs` continues with `ys` from where it stood |
| Sweeps.ReplayStops | packages/core-state/src/wallets/wallet-manager.ts:247-250 | a sweep that stops does so at the first failing transaction, after the earlier ones went through with the same notifications |
| Sweeps.SweepKeepsParties | packages/core-state/src/wallets/wallet-manager.ts:288-292 | parties indexed before a sweep of party-keeping steps stay indexed after it |
| Sweeps.UndoReports | packages/core-state/src/wallets/wallet-manager.ts:264-270 | notification j of the undo sweep over the first k transactions, reversed, is about transaction k-1-j, with the undo's direction |
| Sweeps.UndoRestores | packages/core-state/src/wallets/wallet-manager.ts:264-272 | undoing, last first, every step of a sweep that went through restores the ledger exactly, with the mirror image of the sweep's notifications |
| Sweeps.UndoRestoresAll | packages/core-state/src/wallets/wallet-manager.ts:264-270 | undoing a whole sweep that went through, over its transactions reversed, restores the ledger with the mirror image of its notifications |
| Sweeps.KeepsOrdered | packages/core-state/src/wallets/wallet-manager.ts:244-305 | a step that keeps the registry keeps its order, and keeps the invariant when all standard indexes were present |
| Sweeps.RollbackRestores | packages/core-state/src/wallets/wallet-manager.ts:264-272 | a sweep stopped by a failing step, rolled back last first over the steps that went through, ends on the ledger it started from |
| Sweeps.ApplyStepAtomic | packages/core-state/src/wallets/wallet-manager.ts:307-331 | a failing apply step leaves the ledger as it was |
| Sweeps.RevertStepAtomic | packages/core-state/src/wallets/wallet-manager.ts:333-359 | a failing revert step with indexed parties leaves the ledger as it was, for handlers that re-open a claim's lock |
| Sweeps.RevertStepKeepsParties | packages/core-state/src/wallets/wallet-manager.ts:340-343 | a revert step keeps other indexed parties indexed, for handlers whose revert does |
| Sweeps.RevertUndoesApplyStep | packages/core-state/src/wallets/wallet-manager.ts:264-270 | the manager's revert step undoes its apply step, and a failing apply step changes nothing, under the handler hypotheses |
| Sweeps.ApplyUndoesRevertStep | packages/core-state/src/wallets/wallet-manager.ts:294-300 | the manager's apply step undoes its revert step for transactions with indexed parties, and such a failing revert step changes nothing, under the handler hypotheses |
| Sweeps.Run | packages/core-state/src/wallets/wallet-manager.ts:288-292 | the manager's loop keeps the registry and sends one notification per transaction it got through |
| Blocks.Genesis | packages/core-state/src/wallets/wallet-manager.ts:232-236 | the genesis generator is a fresh wallet of the derived address carrying the key; the registry is kept |
| Blocks.ResolveGenerator | packages/core-state/src/wallets/wallet-manager.ts:229-242 | it halts exactly when no index holds the key and the height is not 1; the lookup throws exactly when some index holds the key but `findByPublicKey` throws, which needs a missing address or public-key index, and then with not-found for that index; a resolved generator, when there is one, is an allocated wallet |
| Blocks.ResolveGeneratorKnown | packages/core-state/src/wallets/wallet-manager.ts:240-242 | a generator whose key the public-key index holds is that wallet, and resolving it changes nothing |
| Blocks.ResolveGeneratorGenesis | packages/core-state/src/wallets/wallet-manager.ts:232-236 | an unknown genesis generator is a fresh wallet entered under both the derived address and the key; a previous entry for that address is overwritten |
| Blocks.BumpVoteBalance | packages/core-state/src/wallets/wallet-manager.ts:259-262 | raising a vote balance keeps the wallets and the registry, even when it throws |
| Blocks.BumpVoteBalanceExact | packages/core-state/src/wallets/wallet-manager.ts:259-262 | for a known key, exactly that delegate's vote balance rises by the increase; a wallet without the delegate attribute throws with no change |
| Blocks.Credit | packages/core-state/src/wallets/wallet-manager.ts:252-263 | the credit keeps the wallets and the registry, even when `Wallet.applyBlock` or the vote bump throws |
| Blocks.CreditExact | packages/core-state/src/wallets/wallet-manager.ts:252-263 | a throw of `Wallet.applyBlock` is rethrown with nothing changed; the credit does nothing when the wallet declines the block; otherwise the generator becomes the credited wallet, and only when it has voted does the vote bump run; for a voted key the public-key index holds, that delegate's balance rises by exactly reward plus total fee with nothing else changed, or a non-delegate throws |
| Blocks.CreditTaken | packages/core-state/src/wallets/wallet-manager.ts:252-263 | the part of `CreditExact` for a wallet that takes the block: the generator becomes the credited wallet, and the vote bump runs only when it has voted |
| Blocks.CreditVoted | packages/core-state/src/wallets/wallet-manager.ts:256-262 | after the generator is credited, the vote bump for a key the public-key index holds raises that delegate's balance by exactly the increase, or throws for a non-delegate with nothing changed |
| Blocks.BumpVoteBalanceUnindexed | packages/core-state/src/wallets/wallet-manager.ts:123-131 | for a voted key the public-key index lacks, a known derived address's wallet gets the key and, when it is a delegate, exactly the increase, with no wallet created; an unknown address gets a new non-delegate wallet that stays while the update throws |
| Blocks.Rollback | packages/core-state/src/wallets/wallet-manager.ts:264-271 | the `catch` of `applyBlock` keeps the registry, clears `currentBlock` and always rethrows |
| Blocks.Settle | packages/core-state/src/wallets/wallet-manager.ts:244-275 | the `try`/`catch`/`finally` keeps the registry and always clears `currentBlock` |
| Blocks.ApplyBlock | packages/core-state/src/wallets/wallet-manager.ts:224-276 | it halts exactly when the generator is unknown at a height other than 1, with the state unchanged apart from `currentBlock`; it leaves `currentBlock` set without halting exactly when the generator lookup throws, with the state otherwise unchanged and the lookup's not-found error; that needs a missing standard index, so with all of them every outcome but a halt clears `currentBlock`; the registry stays ordered, and the invariant holds afterwards when it held before |
| Blocks.Reapply | packages/core-state/src/wallets/wallet-manager.ts:294-301 | the `catch` of `revertBlock` keeps the registry, clears `currentBlock` and always rethrows |
| Blocks.Unapply | packages/core-state/src/wallets/wallet-manager.ts:284-304 | the revert `try`/`catch`/`finally` keeps the registry and always clears `currentBlock` |
| Blocks.RevertBlock | packages/core-state/src/wallets/wallet-manager.ts:278-305 | it halts exactly when the generator is unknown, with the state untouched; every other outcome clears `currentBlock`; the registry stays ordered, and the invariant holds afterwards when it held before |
| Blocks.SettleAtomic | packages/core-state/src/wallets/wallet-manager.ts:264-272 | when a transaction fails, the ones applied are reverted last first and the ledger is exactly the one before the loop; consensus hears the applies and then their mirror image; the error is the failing transaction's |
| Blocks.ReadBackApplied | packages/core-state/src/wallets/wallet-manager.ts:264-270 | a log made of the applies of the first k transactions in order and then at most k reverts of them, last first, reads back as such |
| Blocks.UndoLog | packages/core-state/src/wallets/wallet-manager.ts:264-270 | after any sweep of apply steps, the undo over the transactions it got through, reversed, tells consensus of reverts of exactly those transactions, last first |
| Blocks.SettleRollsBack | packages/core-state/src/wallets/wallet-manager.ts:244-272 | for any handlers, the `try` of `applyBlock` fails exactly when a transaction, `Wallet.applyBlock` or the vote bump throws; consensus then hears the applies in block order and at most as many reverts of them, last first; the error rethrown is the original one when every revert went through |
| Blocks.UndoSweep | packages/core-state/src/wallets/wallet-manager.ts:264-270 | under the handler hypotheses, reverting, last first, every transaction of a sweep that went through restores the ledger before the loop and sends the mirror image of its notifications |
| Blocks.SettleCreditThrows | packages/core-state/src/wallets/wallet-manager.ts:252-272 | when every transaction goes through and `Wallet.applyBlock` throws, the transactions are reverted last first, the ledger is exactly the one before the loop, and the error is the credit's |
| Blocks.ApplyBlockCreditThrows | packages/core-state/src/wallets/wallet-manager.ts:240-272 | the same for `applyBlock` with a known generator |
| Blocks.ApplyBlockAtomic | packages/core-state/src/wallets/wallet-manager.ts:244-272 | with a known generator, a block whose transaction fails leaves the ledger exactly as it was and rethrows that error |
| Blocks.SettleInOrder | packages/core-state/src/wallets/wallet-manager.ts:246-250 | a completed `try` adds one notification per transaction, in block order, as applied |
| Blocks.ApplyBlockInOrder | packages/core-state/src/wallets/wallet-manager.ts:246-250 | a completed block tells consensus of each transaction once, in block order, with `revert = false`, after the earlier log |
| Blocks.ApplyBlockCredits | packages/core-state/src/wallets/wallet-manager.ts:252-263 | when all transactions go through for a known generator, the block credits it, and the voted delegate's balance rises by exactly reward plus total fee with nothing else changed |
| Blocks.UnapplyAtomic | packages/core-state/src/wallets/wallet-manager.ts:294-301 | when a revert fails, the ones reverted are re-applied in block order and the ledger is exactly as before; consensus hears the reverts and then their mirror image |
| Blocks.RevertBlockAtomic | packages/core-state/src/wallets/wallet-manager.ts:278-305 | with a known generator and indexed parties, a block whose revert fails leaves the ledger exactly as it was and rethrows that error |
| Blocks.UnapplyInOrder | packages/core-state/src/wallets/wallet-manager.ts:286-292 | a completed revert `try` adds one notification per transaction, last first, as reverted |
| Blocks.ReadBackReverted | packages/core-state/src/wallets/wallet-manager.ts:294-300 | a log made of the reverts of the last k transactions, last first, and then at most k re-applies of them in block order reads back as such |
| Blocks.RedoLog | packages/core-state/src/wallets/wallet-manager.ts:294-300 | after any sweep of revert steps over the reversed block, the re-apply over the reverted transactions tells consensus of applies of exactly those transactions, in block order |
| Blocks.UnapplyRollsBack | packages/core-state/src/wallets/wallet-manager.ts:284-301 | for any handlers, the `try` of `revertBlock` fails exactly when a revert throws; consensus then hears the reverts, last first, and at most as many re-applies of them in block order; the error rethrown is the original one when every re-apply went through |
| Blocks.RevertBlockInOrder | packages/core-state/src/wallets/wallet-manager.ts:286-292 | a completed revert tells consensus of each transaction once, last first, with `revert = true`, after the earlier log |
| Blocks.RevertBlockKeepsCredit | packages/core-state/src/wallets/wallet-manager.ts:278-305 | an empty block credited to a known generator and then reverted leaves the credit in place: the revert completes without changing the credited ledger |

## Left out

- `wallet-index.ts` and `wallet.ts` are not part of this model.
  - An index is a map from key to wallet handle.
  - `hasVoted()` is read as "the `vote` attribute is present".
  - `isDelegate()` is read as "the `delegate` attribute is present".
  - `Wallet.applyBlock` is the parameter `credit`. It yields a `Result`:
    a `Failure` is a throw, `Success(None)` is a `false` return, and
    `Success(Some(w))` is the credited wallet `w`.
- `Identities.Address.fromPublicKey` is the parameter `derive`, which never
  yields the empty string.
- The handler registry and each handler's business rules are parameters.
  - A handler's `apply` or `revert` either succeeds with a new state that
    keeps the registry or fails with no change.
  - Handlers that change state before throwing are not modelled.
- `getIndexNames`, `allByAddress`, `allByPublicKey`, `allByUsername` and
  `getCurrentBlock` are plain reads and are not modelled separately. The
  registration order is `Ledger.names` and `currentBlock` is
  `State.current`.
- `clone` and `TempWalletManager` are not modelled, because their source is
  not part of this model. `canBePurged` is not modelled either: it
  delegates to the wallet.
- Logger calls do nothing here.
- `async`/`await` runs as sequential steps.
- `BigNumber` is an unbounded `int`.
- `app.forceExit` ends in a `Halted` outcome that carries the state the
  process stopped in. What the process does afterwards is outside the model.
- An indexer registered beyond the six standard ones is modelled as a key
  derivation (`CustomIndexer`): it sets each key it derives to the wallet
  and touches nothing else, the same way on every call. `registerIndex`
  accepts any callback, including one that forgets keys, points a key at
  another wallet or behaves differently from call to call. The idempotence
  and coverage results for non-standard indexes
  (`WalletIndexes.IndexWalletIdempotent`, `Ledgers.ReindexIdempotent`,
  `Ledgers.IndexCovers`, `Ledgers.IndexLastWins`) hold only for such
  well-behaved callbacks.
- Index names are assumed to be neither array-index strings such as "7"
  nor names that `Object.prototype` supplies, such as "constructor" or
  "toString". The registry is a plain object
  (packages/core-state/src/wallets/wallet-manager.ts:14). It lists
  array-index keys first, in numeric order, so `findById` would search such
  an index before the others. It also treats inherited names as already
  registered, so `registerIndex("constructor", …)` throws while
  `Ledgers.RegisterIndex` succeeds. Likewise `getIndex` and
  `unregisterIndex` accept "toString" while `Ledgers.GetIndex` and
  `Ledgers.UnregisterIndex` fail. For every other name, `Ledger.names` is
  the object's iteration order.
- Blocks.SettleAtomic: stated only for a failing transaction. Atomicity needs
  two handler hypotheses: `revert` undoes `apply`, and `apply` indexes the
  parties. These hypotheses exclude every transaction whose apply creates a
  wallet (`Transactions.UndoableApplyCreatesNoWallet`), such as a first
  transfer to a new address. For such a block the code's rollback
  (packages/core-state/src/wallets/wallet-manager.ts:264-270) leaves the
  created wallet in the arena and its entries in the indexes, and the model
  states nothing about that case. A failure of the credit or of the vote-balance update is not
  rolled back by the code, so no atomicity is stated for it.
- Blocks.ApplyBlockAtomic: stated only for a generator the public-key index
  already holds, and under the same handler hypotheses, so not for a block
  with a wallet-creating transaction. At genesis the new
  generator wallet stays after a failure.
- Blocks.ApplyBlockCredits: stated only for a known generator whose voted
  key the public-key index holds. For a voted key it does not hold, the
  lookup derives the address. A wallet is created only when that address is
  unknown. It has no `delegate` attribute, so the update throws. A known
  address's wallet gets the key, and when it is a delegate it also gets the
  increase (`Blocks.BumpVoteBalanceUnindexed`).
- Blocks.CreditExact: for a voted key the public-key index does not hold,
  it states only that the credit hands over to the vote bump on the credited
  ledger. `Blocks.BumpVoteBalanceUnindexed` says what that bump does.
- Blocks.UnapplyAtomic: needs these hypotheses:
  - handlers whose `apply` undoes `revert`;
  - handlers whose `revert` keeps parties indexed and re-opens a claim's lock;
  - every party of the block already indexed.
- Blocks.RevertBlockAtomic: needs the same hypotheses as `UnapplyAtomic`.
- Transactions.RevertTransactionAtomic: stated only for indexed parties. For
  the other case, `Transactions.RevertTransactionKeepsLookups` gives what
  the code does.
- Blocks.Credit: `Wallet.applyBlock` is assumed to change nothing when it
  throws or returns `false`. `wallet.ts` is not part of this model.
- `consensus.addTransaction` is a log append. Its own effects on consensus
  state are outside the model, including the vote-balance updates that the
  comment at packages/core-state/src/wallets/wallet-manager.ts:356 refers
  to.
- Blocks.SettleRollsBack: when a revert in the `catch` throws, the code
  rethrows that revert's error (`Blocks.Rollback` does too); the lemma
  states the error only for a `catch` whose reverts all went through.
- Blocks.UnapplyRollsBack: likewise for a re-apply that throws
  (`Blocks.Reapply`).
- No block-level inverse law is stated. The code does not have one:
  `revertBlock` never undoes the credit or the vote-balance increase.

=== FILE: blocks.dfy ===
/** Applying and reverting a block: generator resolution, the in-order sweep
    over the transactions, the rollback in reverse order when one fails, the
    generator credit and the vote-balance update, and `currentBlock`. */
module Blocks {
  import opened Results
  import opened Wallets
  import opened WalletIndexes
  import opened Ledgers
  import opened Lookups
  import opened Transactions
  import opened Sweeps

  /** The manager: its ledger, `currentBlock`, and the notifications sent to
      consensus so far. */
  datatype State = State(ledger: Ledger, current: Option<Block>, log: seq<Notification>)

  /** How `applyBlock` and `revertBlock` end: normally, with a thrown error, or
      with `forceExit` (the process stops; the state is the one it stopped in). */
  datatype Outcome =
    | Completed(state: State)
    | Failed(state: State, error: Error)
    | Halted(state: State, error: Error)

  // ---------------------------------------------------------------------------
  // The generator

  /** How `applyBlock` finds the generator of a block: a wallet (the ledger may
      have grown on the way), `forceExit` because no index knows the key and
      the block is not the genesis block, or an error thrown by the lookup. */
  datatype Generator =
    | Resolved(ledger: Ledger, delegate: Option<Handle>)
    | Missing
    | Broken(error: Error)

  /** The generator of the genesis block when no index knows its key: a
      brand-new wallet of the derived address, carrying the key, run through
      every indexer. */
  function Genesis(env: Env, l: Ledger, publicKey: string): (r: (Ledger, Handle))
    requires Valid(l) && Ordered(l)
    ensures Keeps(l, r.0) && Ordered(r.0)
    ensures r.1 !in l.wallets
    ensures r.0.wallets == l.wallets[r.1 := NewWallet(env.derive(publicKey)).(publicKey := publicKey)]
  {
    var (l1, h) := Allocate(l, NewWallet(env.derive(publicKey)).(publicKey := publicKey));
    (Reindex(l1, h), h)
  }

  /** `findByPublicKey(key)` throws: the public-key index is not registered,
      or the key is new to it and the address index is not registered. Neither
      can happen while the six standard indexes are registered. */
  ghost predicate LookupThrows(l: Ledger, key: string)
  {
    PublicKeys !in l.indexes || (key != "" && key !in l.indexes[PublicKeys].entries && Addresses !in l.indexes)
  }

  /** The generator lookup at the start of `applyBlock`: a key no index holds
      is the genesis generator at height 1 and fatal at any other height; a
      known key is looked up in the public-key index. */
  function ResolveGenerator(env: Env, l: Ledger, b: Block): (r: Generator)
    requires Valid(l) && Ordered(l)
    ensures r.Missing? <==> !Has(l, b.generatorPublicKey) && b.height != 1
    ensures r.Broken? <==> Has(l, b.generatorPublicKey) && LookupThrows(l, b.generatorPublicKey)
    ensures r.Broken? ==> r.error == IndexNotFound(if PublicKeys in l.indexes then Addresses else PublicKeys)
    ensures r.Broken? ==> !Standard(l)
    ensures r.Resolved? ==>
      && Keeps(l, r.ledger) && Ordered(r.ledger)
      && (r.delegate.Some? ==> r.delegate.value in r.ledger.wallets)
  {
    var key := b.generatorPublicKey;
    if !Has(l, key) then
      if b.height == 1 then
        var (l1, h) := Genesis(env, l, key);
        Resolved(l1, Some(h))
      else
        Missing
    else
      match FindByPublicKey(l, env.derive, key)
      case Failure(e) => Broken(e)
      case Success(found) => Resolved(found.ledger, found.wallet)
  }

  // ---------------------------------------------------------------------------
  // The credit

  /** A step that may throw after changing the ledger. */
  datatype Attempt = Done(ledger: Ledger) | Thrown(ledger: Ledger, error: Error)

  /** Raising the vote balance of the delegate with public key `vote`. The
      lookup may create a wallet; a wallet without the `delegate` attribute has
      no vote balance to add to, and the addition throws. */
  function BumpVoteBalance(env: Env, l: Ledger, vote: string, increase: int): (r: Attempt)
    requires Valid(l)
    ensures Keeps(l, r.ledger)
  {
    match FindByPublicKey(l, env.derive, vote)
    case Failure(e) => Thrown(l, e)
    case Success(found) =>
      match found.wallet
      case None => Thrown(found.ledger, UnresolvedWallet(vote))
      case Some(h) =>
        var w := found.ledger.wallets[h];
        match w.delegate
        case None => Thrown(found.ledger, NotADelegate(vote))
        case Some(d) => Done(SetWallet(found.ledger, h, w.(delegate := Some(d.(voteBalance := d.voteBalance + increase)))))
  }

  /** The generator takes the block (`Wallet.applyBlock`, which reports whether
      it did, or throws) and, when it did and has voted, the delegate it voted
      for has its vote balance raised by reward plus total fee. */
  function Credit(env: Env, l: Ledger, b: Block, delegate: Option<Handle>): (r: Attempt)
    requires Valid(l) && (delegate.Some? ==> delegate.value in l.wallets)
    ensures Keeps(l, r.ledger)
  {
    match delegate
    case None => Thrown(l, UnresolvedWallet(b.generatorPublicKey))
    case Some(h) =>
      match env.credit(l.wallets[h], b)
      case Failure(reason) => Thrown(l, CreditFailed(reason))
      case Success(None) => Done(l)
      case Success(Some(w)) =>
        var l1 := SetWallet(l, h, w);
        if HasVoted(w) then BumpVoteBalance(env, l1, w.vote.value, b.reward + b.totalFee) else Done(l1)
  }

  // ---------------------------------------------------------------------------
  // applyBlock, revertBlock

  /** The `catch` of `applyBlock`, once `sent` has been told to consensus: the
      first `k` transactions of the block, applied on the way to `l1`, are
      reverted last first, and `e` is rethrown unless a revert throws first. */
  function Rollback(env: Env, sent: seq<Notification>, b: Block, k: nat, l1: Ledger, e: Error): (r: Outcome)
    requires Valid(l1) && Sound(env) && k <= |b.transactions|
    ensures Keeps(l1, r.state.ledger)
    ensures r.Failed? && r.state.current.None?
  {
    var undo := Run(env, Some(b), true, l1, Reverse(b.transactions[..k]));
    Failed(State(undo.ledger, None, sent + undo.notes), if undo.error.Some? then undo.error.value else e)
  }

  /** The `try`/`catch`/`finally` of `applyBlock`, once the generator is
      resolved to `delegate` on ledger `l0`. */
  function Settle(env: Env, log: seq<Notification>, b: Block, l0: Ledger, delegate: Option<Handle>): (r: Outcome)
    requires Valid(l0) && Sound(env) && (delegate.Some? ==> delegate.value in l0.wallets)
    ensures Keeps(l0, r.state.ledger)
    ensures !r.Halted? && r.state.current.None?
  {
    var sweep := Run(env, Some(b), false, l0, b.transactions);
    var attempt := if sweep.error.Some? then Thrown(sweep.ledger, sweep.error.value) else Credit(env, sweep.ledger, b, delegate);
    KeepsTransitive(l0, sweep.ledger, attempt.ledger);
    match attempt
    case Done(l1) => Completed(State(l1, None, log + sweep.notes))
    case Thrown(l1, e) =>
      var r := Rollback(env, log + sweep.notes, b, sweep.done, l1, e);
      KeepsTransitive(l0, l1, r.state.ledger);
      r
  }

  /** `applyBlock(block)`. `currentBlock` is set first. A generator no index
      knows stops the process unless the block is the genesis block; an error
      from the generator lookup (possible only once a standard index has been
      unregistered) escapes with `currentBlock` still set. Then the
      transactions are applied in order and the generator credited; if any of
      that throws, the transactions applied so far are reverted last first and
      the error is rethrown (an error from a revert replaces it). Either way
      `currentBlock` is cleared. */
  function ApplyBlock(env: Env, s: State, b: Block): (r: Outcome)
    requires Valid(s.ledger) && Ordered(s.ledger) && Sound(env)
    ensures Keeps(s.ledger, r.state.ledger) && Ordered(r.state.ledger)
    ensures Standard(s.ledger) ==> Wf(r.state.ledger)
    ensures r.Halted? <==> !Has(s.ledger, b.generatorPublicKey) && b.height != 1
    ensures r.Halted? ==>
      r.state == s.(current := Some(b)) && r.error == GeneratorNotFound(b.generatorPublicKey, b.id)
    ensures (!r.Halted? && r.state.current.Some?) <==>
      Has(s.ledger, b.generatorPublicKey) && LookupThrows(s.ledger, b.generatorPublicKey)
    ensures !r.Halted? && r.state.current.Some? ==>
      && r.Failed? && r.state == s.(current := Some(b))
      && r.error == IndexNotFound(if PublicKeys in s.ledger.indexes then Addresses else PublicKeys)
    ensures Standard(s.ledger) && !r.Halted? ==> r.state.current.None?
  {
    match ResolveGenerator(env, s.ledger, b)
    case Missing => Halted(s.(current := Some(b)), GeneratorNotFound(b.generatorPublicKey, b.id))
    case Broken(e) => Failed(s.(current := Some(b)), e)
    case Resolved(l0, delegate) =>
      var r := Settle(env, s.log, b, l0, delegate);
      KeepsTransitive(s.ledger, l0, r.state.ledger);
      KeepsOrdered(s.ledger, r.state.ledger);
      r
  }

  /** The `catch` of `revertBlock`, once `sent` has been told to consensus:
      the `k` transactions reverted on the way to `l1` (the first `k` of the
      block's reverse) are applied again in the reverse of the order they were
      reverted in, and `e` is rethrown unless a re-apply throws first. */
  function Reapply(env: Env, sent: seq<Notification>, b: Block, k: nat, l1: Ledger, e: Error): (r: Outcome)
    requires Valid(l1) && Sound(env) && k <= |b.transactions|
    ensures Keeps(l1, r.state.ledger)
    ensures r.Failed? && r.state.current.None?
  {
    var redo := Run(env, Some(b), false, l1, Reverse(Reverse(b.transactions)[..k]));
    Failed(State(redo.ledger, None, sent + redo.notes), if redo.error.Some? then redo.error.value else e)
  }

  /** The `try`/`catch`/`finally` of `revertBlock`. */
  function Unapply(env: Env, log: seq<Notification>, b: Block, l: Ledger): (r: Outcome)
    requires Valid(l) && Sound(env)
    ensures Keeps(l, r.state.ledger)
    ensures !r.Halted? && r.state.current.None?
  {
    var txs := Reverse(b.transactions);
    var sweep := Run(env, Some(b), true, l, txs);
    if sweep.error.None? then
      Completed(State(sweep.ledger, None, log + sweep.notes))
    else
      var r := Reapply(env, log + sweep.notes, b, sweep.done, sweep.ledger, sweep.error.value);
      KeepsTransitive(l, sweep.ledger, r.state.ledger);
      r
  }

  /** `revertBlock(block)`. A generator no index knows stops the process
      before `currentBlock` is set. The transactions are reverted last first;
      if one fails, those reverted so far are applied again in block order and
      the error is rethrown (an error from a re-apply replaces it). Either way
      `currentBlock` is cleared. The generator is not touched. */
  function RevertBlock(env: Env, s: State, b: Block): (r: Outcome)
    requires Valid(s.ledger) && Ordered(s.ledger) && Sound(env)
    ensures Keeps(s.ledger, r.state.ledger) && Ordered(r.state.ledger)
    ensures Standard(s.ledger) ==> Wf(r.state.ledger)
    ensures r.Halted? <==> !Has(s.ledger, b.generatorPublicKey)
    ensures r.Halted? ==> r.state == s && r.error == GeneratorNotFound(b.generatorPublicKey, b.id)
    ensures !r.Halted? ==> r.state.current.None?
  {
    if !Has(s.ledger, b.generatorPublicKey) then
      Halted(s, GeneratorNotFound(b.generatorPublicKey, b.id))
    else
      var r := Unapply(env, s.log, b, s.ledger);
      KeepsOrdered(s.ledger, r.state.ledger);
      r
  }

  // ---------------------------------------------------------------------------
  // Generator resolution

  /** A generator whose key the public-key index holds is that wallet, and
      resolving it changes nothing. */
  lemma ResolveGeneratorKnown(env: Env, l: Ledger, b: Block)
    requires Wf(l) && b.generatorPublicKey in l.indexes[PublicKeys].entries
    ensures ResolveGenerator(env, l, b) == Resolved(l, Some(l.indexes[PublicKeys].entries[b.generatorPublicKey]))
  {
    assert PublicKeys in l.indexes && b.generatorPublicKey in l.indexes[PublicKeys].entries;
    assert Has(l, b.generatorPublicKey);
  }

  /** The generator of a genesis block that no index knows is a brand-new
      wallet of the derived address carrying the key, entered under both in
      the address and public-key indexes. An entry the derived address had
      before now refers to the new wallet instead. */
  lemma ResolveGeneratorGenesis(env: Env, l: Ledger, b: Block)
    requires Wf(l) && b.height == 1 && !Has(l, b.generatorPublicKey) && b.generatorPublicKey != ""
    ensures var r := ResolveGenerator(env, l, b);
      var key := b.generatorPublicKey;
      var address := env.derive(key);
      && r.Resolved? && r.delegate.Some?
      && var h := r.delegate.value;
      && h !in l.wallets
      && r.ledger.wallets == l.wallets[h := NewWallet(address).(publicKey := key)]
      && r.ledger.indexes[Addresses].entries == l.indexes[Addresses].entries[address := h]
      && r.ledger.indexes[PublicKeys].entries == l.indexes[PublicKeys].entries[key := h]
      && (address in l.indexes[Addresses].entries ==> r.ledger.indexes[Addresses].entries[address] != l.indexes[Addresses].entries[address])
  {
    var key := b.generatorPublicKey;
    var (l1, h) := Allocate(l, NewWallet(env.derive(key)).(publicKey := key));
    ReindexIdentity(l1, h);
    if env.derive(key) in l.indexes[Addresses].entries {
      assert l.indexes[Addresses].entries[env.derive(key)] in l.wallets;
    }
  }

  // ---------------------------------------------------------------------------
  // The credit

  /** `l'` is `l` with the vote balance of delegate `h` raised by `increase`,
      and nothing else changed: no other wallet, no other attribute, no index. */
  ghost predicate VoteRaised(l: Ledger, l': Ledger, h: Handle, increase: int)
  {
    && h in l.wallets && IsDelegate(l.wallets[h])
    && l'.next == l.next && l'.names == l.names && l'.indexes == l.indexes
    && l'.wallets.Keys == l.wallets.Keys
    && (forall h' :: h' in l.wallets && h' != h ==> l'.wallets[h'] == l.wallets[h'])
    && var w, w' := l.wallets[h], l'.wallets[h];
      && w'.delegate.Some?
      && w'.delegate.value.voteBalance == w.delegate.value.voteBalance + increase
      && w'.delegate.value.username == w.delegate.value.username
      && w'.delegate.value.resigned == w.delegate.value.resigned
      && w' == w.(delegate := w'.delegate)
  }

  /** For a key the public-key index holds, the bump raises exactly that
      wallet's vote balance when it is a delegate, and throws without any
      change otherwise. */
  lemma BumpVoteBalanceExact(env: Env, l: Ledger, vote: string, increase: int)
    requires Valid(l) && PublicKeys in l.indexes && vote in l.indexes[PublicKeys].entries
    ensures var h := l.indexes[PublicKeys].entries[vote];
      var r := BumpVoteBalance(env, l, vote, increase);
      && h in l.wallets
      && (IsDelegate(l.wallets[h]) ==> r.Done? && VoteRaised(l, r.ledger, h, increase))
      && (!IsDelegate(l.wallets[h]) ==> r == Thrown(l, NotADelegate(vote)))
  {
    assert RefersInto(l.indexes[PublicKeys], l.wallets);
  }

  /** `l` with the public key `key` attached to wallet `d` and entered in the
      public-key index, as a first `findByPublicKey` of `key` does when the
      derived address is already known. */
  function Attach(l: Ledger, d: Handle, key: string): (r: Ledger)
    requires Valid(l) && d in l.wallets && PublicKeys in l.indexes
  {
    SetEntry(SetWallet(l, d, l.wallets[d].(publicKey := key)), PublicKeys, key, d)
  }

  /** For a voted key the public-key index does not hold, the lookup derives
      the address. A known address's wallet gets the key and, when it is a
      delegate, the increase, with no wallet created; otherwise the update
      throws with the key attached. An unknown address gets a brand-new wallet,
      which is no delegate, so the update throws and that wallet stays. */
  lemma BumpVoteBalanceUnindexed(env: Env, l: Ledger, vote: string, increase: int)
    requires Valid(l) && Addresses in l.indexes && PublicKeys in l.indexes
    requires vote != "" && vote !in l.indexes[PublicKeys].entries
    ensures var address := env.derive(vote);
      var r := BumpVoteBalance(env, l, vote, increase);
      && (address in l.indexes[Addresses].entries ==>
            var d := l.indexes[Addresses].entries[address];
            && d in l.wallets
            && (IsDelegate(l.wallets[d]) ==> r.Done? && VoteRaised(Attach(l, d, vote), r.ledger, d, increase))
            && (!IsDelegate(l.wallets[d]) ==> r == Thrown(Attach(l, d, vote), NotADelegate(vote))))
      && (address !in l.indexes[Addresses].entries ==>
            && r.Thrown? && r.error == NotADelegate(vote)
            && vote in r.ledger.indexes[PublicKeys].entries
            && var h := r.ledger.indexes[PublicKeys].entries[vote];
            && h !in l.wallets
            && r.ledger.wallets == l.wallets[h := NewWallet(address).(publicKey := vote)]
            && r.ledger.indexes[Addresses].entries == l.indexes[Addresses].entries[address := h])
  {
    StandardNamesDistinct();
    FindByPublicKeyAttaches(l, env.derive, vote);
    assert RefersInto(l.indexes[Addresses], l.wallets);
  }

  /** What the credit does to a generator `h`: a throw of `Wallet.applyBlock`
      is rethrown with nothing changed; nothing happens when it declines;
      otherwise the generator becomes the credited wallet and, when it has
      voted for a key the public-key index holds, that delegate's vote balance
      (and nothing else) rises by reward plus total fee. */
  lemma CreditExact(env: Env, l: Ledger, b: Block, h: Handle)
    requires Valid(l) && PublicKeys in l.indexes && h in l.wallets
    ensures var c := env.credit(l.wallets[h], b);
      var r := Credit(env, l, b, Some(h));
      && (c.Failure? ==> r == Thrown(l, CreditFailed(c.error)))
      && (c == Success(None) ==> r == Done(l))
      && (c.Success? && c.value.Some? ==>
            var w := c.value.value;
            var credited := l.(wallets := l.wallets[h := w]);
            && (!HasVoted(w) ==> r == Done(credited))
            && (HasVoted(w) && w.vote.value in l.indexes[PublicKeys].entries ==>
                  var d := l.indexes[PublicKeys].entries[w.vote.value];
                  && (IsDelegate(credited.wallets[d]) ==> r.Done? && VoteRaised(credited, r.ledger, d, b.reward + b.totalFee))
                  && (!IsDelegate(credited.wallets[d]) ==> r == Thrown(credited, NotADelegate(w.vote.value))))
            && (HasVoted(w) && w.vote.value !in l.indexes[PublicKeys].entries ==>
                  r == BumpVoteBalance(env, credited, w.vote.value, b.reward + b.totalFee)))
  {
    var c := env.credit(l.wallets[h], b);
    if c.Success? && c.value.Some? {
      CreditTaken(env, l, b, h, c.value.value);
    }
  }

  /** `CreditExact` when `Wallet.applyBlock` takes the block and yields `w`. */
  lemma CreditTaken(env: Env, l: Ledger, b: Block, h: Handle, w: Wallet)
    requires Valid(l) && PublicKeys in l.indexes && h in l.wallets
    requires env.credit(l.wallets[h], b) == Success(Some(w))
    ensures var r := Credit(env, l, b, Some(h));
      var credited := l.(wallets := l.wallets[h := w]);
      && (!HasVoted(w) ==> r == Done(credited))
      && (HasVoted(w) && w.vote.value in l.indexes[PublicKeys].entries ==>
            var d := l.indexes[PublicKeys].entries[w.vote.value];
            && (IsDelegate(credited.wallets[d]) ==> r.Done? && VoteRaised(credited, r.ledger, d, b.reward + b.totalFee))
            && (!IsDelegate(credited.wallets[d]) ==> r == Thrown(credited, NotADelegate(w.vote.value))))
      && (HasVoted(w) && w.vote.value !in l.indexes[PublicKeys].entries ==>
            r == BumpVoteBalance(env, credited, w.vote.value, b.reward + b.totalFee))
  {
    var credited := SetWallet(l, h, w);
    assert Credit(env, l, b, Some(h)) ==
      if HasVoted(w) then BumpVoteBalance(env, credited, w.vote.value, b.reward + b.totalFee) else Done(credited);
    if HasVoted(w) && w.vote.value in l.indexes[PublicKeys].entries {
      CreditVoted(env, l, h, w, b.reward + b.totalFee);
    }
  }

  /** `BumpVoteBalanceExact` after the generator `h` has become `w`, which
      voted for a key the public-key index holds. */
  lemma CreditVoted(env: Env, l: Ledger, h: Handle, w: Wallet, increase: int)
    requires Valid(l) && PublicKeys in l.indexes && h in l.wallets
    requires HasVoted(w) && w.vote.value in l.indexes[PublicKeys].entries
    ensures var credited := l.(wallets := l.wallets[h := w]);
      var d := l.indexes[PublicKeys].entries[w.vote.value];
      var r := BumpVoteBalance(env, SetWallet(l, h, w), w.vote.value, increase);
      && (IsDelegate(credited.wallets[d]) ==> r.Done? && VoteRaised(credited, r.ledger, d, increase))
      && (!IsDelegate(credited.wallets[d]) ==> r == Thrown(credited, NotADelegate(w.vote.value)))
  {
    assert SetWallet(l, h, w) == l.(wallets := l.wallets[h := w]);
    BumpVoteBalanceExact(env, SetWallet(l, h, w), w.vote.value, increase);
  }

  // ---------------------------------------------------------------------------
  // applyBlock

  /** `out` is `log`, then `first`, which tells of the first `|first|`
      transactions of `txs` in order as applied, then at most as many reverts
      of those transactions, last first. */
  ghost predicate AppliedThenUndone(out: seq<Notification>, log: seq<Notification>, first: seq<Notification>, txs: seq<Transaction>)
  {
    var k := |first|;
    && k <= |txs|
    && |log| + k <= |out| <= |log| + 2 * k
    && out[..|log| + k] == log + first
    && (forall i :: |log| <= i < |log| + k ==> !out[i].revert && out[i].transaction == txs[i - |log|])
    && (forall i :: |log| + k <= i < |out| ==> out[i].revert && out[i].transaction == txs[k - 1 - (i - |log| - k)])
  }

  /** `out` is `log`, then `first`, which tells of the last `|first|`
      transactions of `txs` last first as reverted, then at most as many
      re-applies of those transactions, in the order of `txs`. */
  ghost predicate RevertedThenRedone(out: seq<Notification>, log: seq<Notification>, first: seq<Notification>, txs: seq<Transaction>)
  {
    var k, n := |first|, |txs|;
    && k <= n
    && |log| + k <= |out| <= |log| + 2 * k
    && out[..|log| + k] == log + first
    && (forall i :: |log| <= i < |log| + k ==> out[i].revert && out[i].transaction == txs[n - 1 - (i - |log|)])
    && (forall i :: |log| + k <= i < |out| ==> !out[i].revert && out[i].transaction == txs[n - k + (i - |log| - k)])
  }

  /** The `k` notifications of a sweep in block order (`first`) and the `d`
      of an undo of it (`second`), sent after `log`, read back by position. */
  lemma ReadBackApplied(log: seq<Notification>, first: seq<Notification>, second: seq<Notification>, txs: seq<Transaction>, k: nat, d: nat)
    requires |first| == k <= |txs| && |second| == d <= k
    requires forall i :: 0 <= i < k ==> first[i].transaction == txs[i] && first[i].revert == false
    requires forall j :: 0 <= j < d ==> && second[j].transaction == txs[k - 1 - j] && second[j].revert == true
    ensures AppliedThenUndone(log + first + second, log, first, txs)
  {
    var out := log + first + second;
    forall i | |log| <= i < |log| + k
      ensures !out[i].revert && out[i].transaction == txs[i - |log|]
    {
      assert out[i] == first[i - |log|];
    }
    forall i | |log| + k <= i < |out|
      ensures out[i].revert && out[i].transaction == txs[k - 1 - (i - |log| - k)]
    {
      assert out[i] == second[i - |log| - k];
    }
  }

  /** The `k` notifications of a sweep over `back`, the reverse of `txs`
      (`first`), and the `d` of an undo of it (`second`), sent after `log`,
      read back by position in `txs`. */
  lemma ReadBackReverted(log: seq<Notification>, first: seq<Notification>, second: seq<Notification>, txs: seq<Transaction>, back: seq<Transaction>, k: nat, d: nat)
    requires |back| == |txs| && forall i :: 0 <= i < |txs| ==> back[i] == txs[|txs| - 1 - i]
    requires |first| == k <= |txs| && |second| == d <= k
    requires forall i :: 0 <= i < k ==> first[i].transaction == back[i] && first[i].revert == true
    requires forall j :: 0 <= j < d ==> && second[j].transaction == back[k - 1 - j] && second[j].revert == false
    ensures RevertedThenRedone(log + first + second, log, first, txs)
  {
    var out, n := log + first + second, |txs|;
    forall i | |log| <= i < |log| + k
      ensures out[i].revert && out[i].transaction == txs[n - 1 - (i - |log|)]
    {
      assert out[i] == first[i - |log|];
    }
    forall i | |log| + k <= i < |out|
      ensures !out[i].revert && out[i].transaction == txs[n - k + (i - |log| - k)]
    {
      assert out[i] == second[i - |log| - k];
    }
  }

  /** A sweep of `f` over `txs` followed by an undo of `g` over what it got
      through, last first, tells consensus of the transactions applied, in
      order, and then of reverts of those, last first. */
  lemma UndoLog(f: StepFn, g: StepFn, l: Ledger, l1: Ledger, log: seq<Notification>, txs: seq<Transaction>)
    requires Valid(l) && Valid(l1) && Steps(f) && StepsReport(f, false) && Steps(g) && StepsReport(g, true)
    ensures var sweep := Replay(f, l, txs);
      AppliedThenUndone(log + sweep.notes + Replay(g, l1, Reverse(txs[..sweep.done])).notes, log, sweep.notes, txs)
  {
    var sweep := Replay(f, l, txs);
    var undo := Replay(g, l1, Reverse(txs[..sweep.done]));
    ReplayReports(f, l, txs, false);
    UndoReports(g, l1, txs, sweep.done, true);
    ReadBackApplied(log, sweep.notes, undo.notes, txs, sweep.done, undo.done);
  }

  /** A sweep of `f` over `back`, the reverse of `txs`, followed by an undo of
      `g` over what it got through, last first, tells consensus of the
      transactions reverted, last first, and then of re-applies of those, in
      the order of `txs`. */
  lemma RedoLog(f: StepFn, g: StepFn, l: Ledger, l1: Ledger, log: seq<Notification>, txs: seq<Transaction>, back: seq<Transaction>)
    requires Valid(l) && Valid(l1) && Steps(f) && StepsReport(f, true) && Steps(g) && StepsReport(g, false)
    requires |back| == |txs| && forall i :: 0 <= i < |txs| ==> back[i] == txs[|txs| - 1 - i]
    ensures var sweep := Replay(f, l, back);
      RevertedThenRedone(log + sweep.notes + Replay(g, l1, Reverse(back[..sweep.done])).notes, log, sweep.notes, txs)
  {
    var sweep := Replay(f, l, back);
    var redo := Replay(g, l1, Reverse(back[..sweep.done]));
    ReplayReports(f, l, back, true);
    UndoReports(g, l1, back, sweep.done, false);
    ReadBackReverted(log, sweep.notes, redo.notes, txs, back, sweep.done, redo.done);
  }

  /** If a transaction of the block fails, every transaction applied before it
      is reverted and the ledger is exactly the one the generator was resolved
      on; consensus hears of the applied transactions and then of their
      reverts, last first; the error is the failing transaction's. This needs
      handlers whose `revert` undoes `apply` and which index the parties they
      touch. */
  lemma {:induction false} SettleAtomic(env: Env, log: seq<Notification>, b: Block, l0: Ledger, delegate: Option<Handle>)
    requires Wf(l0) && Sound(env) && RevertUndoesApply(env) && ApplyIndexesParties(env)
    requires delegate.Some? ==> delegate.value in l0.wallets
    requires Run(env, Some(b), false, l0, b.transactions).error.Some?
    ensures var sweep := Run(env, Some(b), false, l0, b.transactions);
      Settle(env, log, b, l0, delegate) ==
        Failed(State(l0, None, log + sweep.notes + Mirror(sweep.notes)), sweep.error.value)
  {
    var f, g := StepOf(env, Some(b), false), StepOf(env, Some(b), true);
    RevertUndoesApplyStep(env, Some(b));
    RollbackRestores(f, g, false, l0, b.transactions);
  }

  /** With a generator the public-key index already holds, a block whose
      transaction fails leaves the ledger exactly as it was. */
  lemma ApplyBlockAtomic(env: Env, s: State, b: Block)
    requires Wf(s.ledger) && Sound(env) && RevertUndoesApply(env) && ApplyIndexesParties(env)
    requires b.generatorPublicKey in s.ledger.indexes[PublicKeys].entries
    requires Run(env, Some(b), false, s.ledger, b.transactions).error.Some?
    ensures var sweep := Run(env, Some(b), false, s.ledger, b.transactions);
      ApplyBlock(env, s, b) ==
        Failed(State(s.ledger, None, s.log + sweep.notes + Mirror(sweep.notes)), sweep.error.value)
  {
    ResolveGeneratorKnown(env, s.ledger, b);
    SettleAtomic(env, s.log, b, s.ledger, Some(s.ledger.indexes[PublicKeys].entries[b.generatorPublicKey]));
  }

  /** Reverting, last first, every transaction of a block that went through
      restores the ledger it was applied to. */
  lemma UndoSweep(env: Env, b: Block, l0: Ledger)
    requires Wf(l0) && Sound(env) && RevertUndoesApply(env) && ApplyIndexesParties(env)
    requires Run(env, Some(b), false, l0, b.transactions).error.None?
    ensures var sweep := Run(env, Some(b), false, l0, b.transactions);
      Run(env, Some(b), true, sweep.ledger, Reverse(b.transactions[..sweep.done])) == Sweep(l0, Mirror(sweep.notes), sweep.done, None)
  {
    var f, g := StepOf(env, Some(b), false), StepOf(env, Some(b), true);
    RevertUndoesApplyStep(env, Some(b));
    UndoRestoresAll(f, g, false, l0, b.transactions);
  }

  /** If `Wallet.applyBlock` throws after every transaction went through,
      all of them are reverted and the ledger is exactly the one the
      generator was resolved on; consensus hears of the applied transactions
      and then of their reverts, last first; the error is the credit's. This
      needs handlers whose `revert` undoes `apply`. */
  lemma SettleCreditThrows(env: Env, log: seq<Notification>, b: Block, l0: Ledger, h: Handle)
    requires Wf(l0) && Sound(env) && RevertUndoesApply(env) && ApplyIndexesParties(env) && h in l0.wallets
    requires var sweep := Run(env, Some(b), false, l0, b.transactions);
      && sweep.error.None?
      && h in sweep.ledger.wallets && env.credit(sweep.ledger.wallets[h], b).Failure?
    ensures var sweep := Run(env, Some(b), false, l0, b.transactions);
      Settle(env, log, b, l0, Some(h)) ==
        Failed(State(l0, None, log + sweep.notes + Mirror(sweep.notes)), CreditFailed(env.credit(sweep.ledger.wallets[h], b).error))
  {
    UndoSweep(env, b, l0);
  }

  /** With a generator the public-key index already holds, a block whose
      credit throws leaves the ledger exactly as it was. */
  lemma ApplyBlockCreditThrows(env: Env, s: State, b: Block)
    requires Wf(s.ledger) && Sound(env) && RevertUndoesApply(env) && ApplyIndexesParties(env)
    requires b.generatorPublicKey in s.ledger.indexes[PublicKeys].entries
    requires var sweep := Run(env, Some(b), false, s.ledger, b.transactions);
      var h := s.ledger.indexes[PublicKeys].entries[b.generatorPublicKey];
      && sweep.error.None?
      && h in sweep.ledger.wallets && env.credit(sweep.ledger.wallets[h], b).Failure?
    ensures var sweep := Run(env, Some(b), false, s.ledger, b.transactions);
      var h := s.ledger.indexes[PublicKeys].entries[b.generatorPublicKey];
      ApplyBlock(env, s, b) ==
        Failed(State(s.ledger, None, s.log + sweep.notes + Mirror(sweep.notes)), CreditFailed(env.credit(sweep.ledger.wallets[h], b).error))
  {
    var h := s.ledger.indexes[PublicKeys].entries[b.generatorPublicKey];
    assert RefersInto(s.ledger.indexes[PublicKeys], s.ledger.wallets);
    ResolveGeneratorKnown(env, s.ledger, b);
    SettleCreditThrows(env, s.log, b, s.ledger, h);
  }

  /** Whatever the handlers do, a `try` block of `applyBlock` that throws
      (a transaction or the credit) tells consensus of the transactions applied,
      in block order, and then of at most as many reverts, of those
      transactions last first; the error rethrown is the original one unless
      a revert threw. */
  lemma SettleRollsBack(env: Env, log: seq<Notification>, b: Block, l0: Ledger, delegate: Option<Handle>)
    requires Valid(l0) && Sound(env) && (delegate.Some? ==> delegate.value in l0.wallets)
    ensures var sweep := Run(env, Some(b), false, l0, b.transactions);
      var k := sweep.done;
      var r := Settle(env, log, b, l0, delegate);
      && (r.Failed? <==> sweep.error.Some? || Credit(env, sweep.ledger, b, delegate).Thrown?)
      && (r.Failed? ==>
            && AppliedThenUndone(r.state.log, log, sweep.notes, b.transactions)
            && (|r.state.log| == |log| + 2 * k ==>
                  r.error == if sweep.error.Some? then sweep.error.value else Credit(env, sweep.ledger, b, delegate).error))
  {
    var sweep := Run(env, Some(b), false, l0, b.transactions);
    var r := Settle(env, log, b, l0, delegate);
    if r.Failed? {
      var f, g := StepOf(env, Some(b), false), StepOf(env, Some(b), true);
      var attempt := if sweep.error.Some? then Thrown(sweep.ledger, sweep.error.value) else Credit(env, sweep.ledger, b, delegate);
      assert r.state.log == log + sweep.notes + Replay(g, attempt.ledger, Reverse(b.transactions[..sweep.done])).notes;
      UndoLog(f, g, l0, attempt.ledger, log, b.transactions);
    }
  }

  /** The notifications a completed `try` block adds: one per transaction,
      in block order, as applied. */
  lemma SettleInOrder(env: Env, log: seq<Notification>, b: Block, l0: Ledger, delegate: Option<Handle>)
    requires Valid(l0) && Sound(env) && (delegate.Some? ==> delegate.value in l0.wallets)
    ensures var r := Settle(env, log, b, l0, delegate);
      r.Completed? ==>
        && |r.state.log| == |log| + |b.transactions|
        && r.state.log[..|log|] == log
        && var sent := r.state.log[|log|..];
          forall i :: 0 <= i < |b.transactions| ==> sent[i].transaction == b.transactions[i] && !sent[i].revert
  {
    var f := StepOf(env, Some(b), false);
    ReplayReports(f, l0, b.transactions, false);
    var sweep := Replay(f, l0, b.transactions);
    var r := Settle(env, log, b, l0, delegate);
    if r.Completed? {
      assert r.state.log == log + sweep.notes;
      assert r.state.log[|log|..] == sweep.notes;
    }
  }

  /** A block that goes through tells consensus of each transaction once, in
      block order, as applied. */
  lemma ApplyBlockInOrder(env: Env, s: State, b: Block)
    requires Valid(s.ledger) && Ordered(s.ledger) && Sound(env)
    ensures var r := ApplyBlock(env, s, b);
      r.Completed? ==>
        && |r.state.log| == |s.log| + |b.transactions|
        && r.state.log[..|s.log|] == s.log
        && var sent := r.state.log[|s.log|..];
          forall i :: 0 <= i < |b.transactions| ==> sent[i].transaction == b.transactions[i] && !sent[i].revert
  {
    var g := ResolveGenerator(env, s.ledger, b);
    if g.Resolved? {
      SettleInOrder(env, s.log, b, g.ledger, g.delegate);
    }
  }

  /** When every transaction goes through and the known generator takes the
      block, the generator is credited and the delegate it voted for has its
      vote balance raised by exactly reward plus total fee, and no other vote
      balance changes. */
  lemma ApplyBlockCredits(env: Env, s: State, b: Block)
    requires Wf(s.ledger) && Sound(env)
    requires b.generatorPublicKey in s.ledger.indexes[PublicKeys].entries
    requires Run(env, Some(b), false, s.ledger, b.transactions).error.None?
    ensures var l := Run(env, Some(b), false, s.ledger, b.transactions).ledger;
      var h := s.ledger.indexes[PublicKeys].entries[b.generatorPublicKey];
      && h in l.wallets
      && (env.credit(l.wallets[h], b) == Success(None) ==> ApplyBlock(env, s, b).state.ledger == l)
      && (env.credit(l.wallets[h], b).Success? && env.credit(l.wallets[h], b).value.Some? ==>
            var w := env.credit(l.wallets[h], b).value.value;
            var credited := l.(wallets := l.wallets[h := w]);
            HasVoted(w) && w.vote.value in l.indexes[PublicKeys].entries ==>
              var d := l.indexes[PublicKeys].entries[w.vote.value];
              IsDelegate(credited.wallets[d]) ==>
                && ApplyBlock(env, s, b).Completed?
                && VoteRaised(credited, ApplyBlock(env, s, b).state.ledger, d, b.reward + b.totalFee))
  {
    var h := s.ledger.indexes[PublicKeys].entries[b.generatorPublicKey];
    assert RefersInto(s.ledger.indexes[PublicKeys], s.ledger.wallets);
    ResolveGeneratorKnown(env, s.ledger, b);
    var l := Run(env, Some(b), false, s.ledger, b.transactions).ledger;
    CreditExact(env, l, b, h);
  }

  // ---------------------------------------------------------------------------
  // revertBlock

  /** If reverting a transaction of the block fails, those reverted before it
      are applied again and the ledger is exactly as it was; consensus hears
      of the reverts and then of the re-applies, in block order. This needs
      handlers whose `apply` undoes `revert`, whose `revert` keeps parties
      indexed and re-opens the locks of HTLC claims, and every party of the
      block already indexed. */
  lemma UnapplyAtomic(env: Env, log: seq<Notification>, b: Block, l: Ledger)
    requires Wf(l) && Sound(env) && ApplyUndoesRevert(env) && RevertKeepsParties(env) && ClaimsReopen(env)
    requires forall t :: t in b.transactions ==> PartiesIndexed(l, t)
    requires Run(env, Some(b), true, l, Reverse(b.transactions)).error.Some?
    ensures var sweep := Run(env, Some(b), true, l, Reverse(b.transactions));
      Unapply(env, log, b, l) == Failed(State(l, None, log + sweep.notes + Mirror(sweep.notes)), sweep.error.value)
  {
    var f, g := StepOf(env, Some(b), true), StepOf(env, Some(b), false);
    ApplyUndoesRevertStep(env, Some(b));
    assert forall t :: t in Reverse(b.transactions) ==> t in b.transactions;
    RollbackRestores(f, g, true, l, Reverse(b.transactions));
  }

  /** With a known generator and every party of the block indexed, a block
      whose revert fails leaves the ledger exactly as it was. */
  lemma RevertBlockAtomic(env: Env, s: State, b: Block)
    requires Wf(s.ledger) && Sound(env) && ApplyUndoesRevert(env) && RevertKeepsParties(env) && ClaimsReopen(env)
    requires forall t :: t in b.transactions ==> PartiesIndexed(s.ledger, t)
    requires Has(s.ledger, b.generatorPublicKey)
    requires Run(env, Some(b), true, s.ledger, Reverse(b.transactions)).error.Some?
    ensures var sweep := Run(env, Some(b), true, s.ledger, Reverse(b.transactions));
      RevertBlock(env, s, b) ==
        Failed(State(s.ledger, None, s.log + sweep.notes + Mirror(sweep.notes)), sweep.error.value)
  {
    UnapplyAtomic(env, s.log, b, s.ledger);
  }

  /** The notifications a completed `try` block of `revertBlock` adds: one
      per transaction, last first, as reverted. */
  lemma UnapplyInOrder(env: Env, log: seq<Notification>, b: Block, l: Ledger)
    requires Valid(l) && Sound(env)
    ensures var r := Unapply(env, log, b, l);
      var n := |b.transactions|;
      r.Completed? ==>
        && |r.state.log| == |log| + n
        && r.state.log[..|log|] == log
        && var sent := r.state.log[|log|..];
          forall i :: 0 <= i < n ==> sent[i].transaction == b.transactions[n - 1 - i] && sent[i].revert
  {
    var r := Unapply(env, log, b, l);
    if r.Completed? {
      var g := StepOf(env, Some(b), true);
      var txs := Reverse(b.transactions);
      var sweep := Replay(g, l, txs);
      assert r.state.log == log + sweep.notes && sweep.done == |txs|;
      assert forall i :: 0 <= i < sweep.done ==> sweep.notes[i].transaction == txs[i] && sweep.notes[i].revert by {
        ReplayReports(g, l, txs, true);
      }
      assert r.state.log[|log|..] == sweep.notes;
    }
  }

  /** Whatever the handlers do, a `try` block of `revertBlock` that throws
      tells consensus of the transactions reverted, last first, and then of at
      most as many re-applies, of those transactions in block order; the error
      rethrown is the original one unless a re-apply threw. */
  lemma UnapplyRollsBack(env: Env, log: seq<Notification>, b: Block, l: Ledger)
    requires Valid(l) && Sound(env)
    ensures var sweep := Run(env, Some(b), true, l, Reverse(b.transactions));
      var k := sweep.done;
      var r := Unapply(env, log, b, l);
      && (r.Failed? <==> sweep.error.Some?)
      && (r.Failed? ==>
            && RevertedThenRedone(r.state.log, log, sweep.notes, b.transactions)
            && (|r.state.log| == |log| + 2 * k ==> r.error == sweep.error.value))
  {
    var sweep := Run(env, Some(b), true, l, Reverse(b.transactions));
    var r := Unapply(env, log, b, l);
    if r.Failed? {
      var f, g := StepOf(env, Some(b), true), StepOf(env, Some(b), false);
      assert r.state.log == log + sweep.notes + Replay(g, sweep.ledger, Reverse(Reverse(b.transactions)[..sweep.done])).notes;
      RedoLog(f, g, l, sweep.ledger, log, b.transactions, Reverse(b.transactions));
    }
  }

  /** A block that is reverted without error tells consensus of each
      transaction once, last first, as reverted. */
  lemma RevertBlockInOrder(env: Env, s: State, b: Block)
    requires Valid(s.ledger) && Ordered(s.ledger) && Sound(env)
    ensures var r := RevertBlock(env, s, b);
      var n := |b.transactions|;
      r.Completed? ==>
        && |r.state.log| == |s.log| + n
        && r.state.log[..|s.log|] == s.log
        && var sent := r.state.log[|s.log|..];
          forall i :: 0 <= i < n ==> sent[i].transaction == b.transactions[n - 1 - i] && sent[i].revert
  {
    UnapplyInOrder(env, s.log, b, s.ledger);
  }

  /** `revertBlock` does not take back the generator's credit: after an empty
      block is applied and credited to a known generator, reverting it leaves
      the credited wallet in place, so the ledger does not return to where it
      was. */
  lemma RevertBlockKeepsCredit(env: Env, s: State, b: Block)
    requires Wf(s.ledger) && Sound(env) && b.transactions == []
    requires b.generatorPublicKey in s.ledger.indexes[PublicKeys].entries
    requires var h := s.ledger.indexes[PublicKeys].entries[b.generatorPublicKey];
      h in s.ledger.wallets && var c := env.credit(s.ledger.wallets[h], b);
      c.Success? && c.value.Some? && !HasVoted(c.value.value)
    ensures var h := s.ledger.indexes[PublicKeys].entries[b.generatorPublicKey];
      var a := ApplyBlock(env, s, b);
      && a.Completed?
      && a.state.ledger == s.ledger.(wallets := s.ledger.wallets[h := env.credit(s.ledger.wallets[h], b).value.value])
      && RevertBlock(env, a.state, b) == Completed(a.state)
  {
    var h := s.ledger.indexes[PublicKeys].entries[b.generatorPublicKey];
    ResolveGeneratorKnown(env, s.ledger, b);
    CreditExact(env, s.ledger, b, h);
    var a := ApplyBlock(env, s, b);
    assert a.state.log == s.log;
    assert a.state.ledger.indexes == s.ledger.indexes;
    assert Has(a.state.ledger, b.generatorPublicKey) by {
      assert PublicKeys in a.state.ledger.indexes && b.generatorPublicKey in a.state.ledger.indexes[PublicKeys].entries;
    }
    assert Reverse(b.transactions) == [];
  }
}

=== FILE: ledger.dfy ===
/** The wallet manager's state: an arena of wallet records and the registry of
    named indexes over it, with the registry operations, `reindex`, `index` and
    `reset`. */
module Ledgers {
  import opened Results
  import opened Wallets
  import opened WalletIndexes

  ghost predicate Distinct(s: seq<string>)
  {
    forall i, j :: 0 <= i < j < |s| ==> s[i] != s[j]
  }

  /** `wallets` is the arena; `next` the next fresh handle; `names` the index
      names in registration order, which is the iteration order of the
      `indexes` object for names that are not array indexes. */
  datatype Ledger = Ledger(
    wallets: map<Handle, Wallet>,
    next: Handle,
    names: seq<string>,
    indexes: map<string, WalletIndex>)

  /** Every entry of the index refers to a wallet of the arena. */
  ghost predicate RefersInto(wi: WalletIndex, wallets: map<Handle, Wallet>)
  {
    forall k :: k in wi.entries ==> wi.entries[k] in wallets
  }

  /** Wallet references never dangle: every index entry refers to an allocated
      wallet, and fresh handles are really fresh. */
  ghost predicate Valid(l: Ledger)
  {
    && (forall h :: h in l.wallets ==> h < l.next)
    && (forall n :: n in l.indexes ==> RefersInto(l.indexes[n], l.wallets))
  }

  /** `names` lists the registered indexes and nothing else. That it lists each
      only once is kept separately, as `Distinct(l.names)`. */
  ghost predicate Ordered(l: Ledger)
  {
    && (forall n :: n in l.names ==> n in l.indexes)
    && (forall n :: n in l.indexes ==> n in l.names)
  }

  /** The six standard indexes are registered with their own indexers. */
  ghost predicate Standard(l: Ledger)
  {
    && Addresses in l.indexes && l.indexes[Addresses].indexer.AddressIndexer?
    && PublicKeys in l.indexes && l.indexes[PublicKeys].indexer.PublicKeyIndexer?
    && Usernames in l.indexes && l.indexes[Usernames].indexer.UsernameIndexer?
    && Resignations in l.indexes && l.indexes[Resignations].indexer.ResignationIndexer?
    && Locks in l.indexes && l.indexes[Locks].indexer.LockIndexer?
    && Ipfs in l.indexes && l.indexes[Ipfs].indexer.IpfsIndexer?
  }

  /** No wallet record is ever dropped from the arena. */
  ghost predicate Grows(l: Ledger, l': Ledger)
  {
    l.wallets.Keys <= l'.wallets.Keys
  }

  /** A step that may change wallets and index entries but neither drops a
      wallet nor touches the index registry. */
  ghost predicate Keeps(l: Ledger, l': Ledger)
  {
    && Valid(l')
    && Grows(l, l')
    && l'.names == l.names
    && l'.indexes.Keys == l.indexes.Keys
    && (Standard(l) ==> Standard(l'))
  }

  /** Steps that keep the registry compose. */
  lemma KeepsTransitive(l: Ledger, l1: Ledger, l2: Ledger)
    requires Keeps(l, l1) && Keeps(l1, l2)
    ensures Keeps(l, l2)
  {
  }

  /** Extensionality for index registries, stated once so that callers need not
      unfold how the registries were built. */
  lemma SameIndexes(m1: map<string, WalletIndex>, m2: map<string, WalletIndex>)
    requires m1.Keys == m2.Keys
    requires forall n :: n in m1 ==> m1[n] == m2[n]
    ensures m1 == m2
  {
  }

  // ---------------------------------------------------------------------------
  // Arena and entry primitives

  /** Stores a new wallet object under a fresh handle. */
  function Allocate(l: Ledger, w: Wallet): (r: (Ledger, Handle))
    requires Valid(l)
    ensures Valid(r.0)
    ensures r.1 !in l.wallets
    ensures r.0.wallets == l.wallets[r.1 := w]
    ensures r.0.names == l.names && r.0.indexes == l.indexes
  {
    (l.(wallets := l.wallets[l.next := w], next := l.next + 1), l.next)
  }

  /** Mutates the wallet object behind a handle. */
  function SetWallet(l: Ledger, h: Handle, w: Wallet): (r: Ledger)
    requires Valid(l) && h in l.wallets
    ensures Valid(r)
    ensures r.wallets == l.wallets[h := w]
    ensures r.names == l.names && r.indexes == l.indexes
    ensures Keeps(l, r)
  {
    l.(wallets := l.wallets[h := w])
  }

  /** `index.set(key, wallet)` on a registered index. */
  function SetEntry(l: Ledger, name: string, key: string, h: Handle): (r: Ledger)
    requires Valid(l) && name in l.indexes && h in l.wallets
    ensures Valid(r)
    ensures r.wallets == l.wallets && r.names == l.names
    ensures r.indexes == l.indexes[name := l.indexes[name].(entries := l.indexes[name].entries[key := h])]
    ensures Keeps(l, r)
  {
    l.(indexes := l.indexes[name := l.indexes[name].(entries := l.indexes[name].entries[key := h])])
  }

  // ---------------------------------------------------------------------------
  // Index registry

  /** `names` with `x` removed, order kept. */
  function Without(s: seq<string>, x: string): (r: seq<string>)
    ensures forall y :: y in r <==> y in s && y != x
  {
    if s == [] then []
    else if s[0] == x then Without(s[1..], x)
    else [s[0]] + Without(s[1..], x)
  }

  /** Removing a name keeps the others distinct. */
  lemma {:induction false} WithoutDistinct(s: seq<string>, x: string)
    ensures Distinct(s) ==> Distinct(Without(s, x))
  {
    if s != [] && Distinct(s) {
      assert Distinct(s[1..]) by {
        forall i, j | 0 <= i < j < |s[1..]| ensures s[1..][i] != s[1..][j] {
          assert s[1..][i] == s[i + 1] && s[1..][j] == s[j + 1];
        }
      }
      WithoutDistinct(s[1..], x);
      if s[0] != x {
        assert s[0] !in s[1..] by {
          forall j | 0 <= j < |s[1..]| ensures s[1..][j] != s[0] {
            assert s[1..][j] == s[j + 1];
          }
        }
      }
    }
  }

  lemma {:induction false} WithoutLast(s: seq<string>, x: string)
    requires x !in s
    ensures Without(s + [x], x) == s
  {
    if s == [] {
      assert s + [x] == [x];
    } else {
      assert (s + [x])[1..] == s[1..] + [x];
      WithoutLast(s[1..], x);
    }
  }

  /** Removing a name that is not there changes nothing. */
  lemma {:induction false} WithoutAbsent(s: seq<string>, x: string)
    requires x !in s
    ensures Without(s, x) == s
  {
    if s != [] {
      WithoutAbsent(s[1..], x);
      assert [s[0]] + s[1..] == s;
    }
  }

  /** Removing a name that occurs only at position `i` cuts it out there and
      keeps the others in their order. */
  lemma {:induction false} WithoutAt(s: seq<string>, x: string, i: nat)
    requires i < |s| && s[i] == x && x !in s[..i] && x !in s[i + 1..]
    ensures Without(s, x) == s[..i] + s[i + 1..]
  {
    if i == 0 {
      WithoutAbsent(s[1..], x);
      assert s[..0] + s[1..] == s[1..];
    } else {
      assert s[0] in s[..i];
      assert s[1..][..i - 1] == s[1..i];
      var before := s[1..][..i - 1];
      assert x !in before by {
        forall j | 0 <= j < |before| ensures before[j] != x {
          assert before[j] == s[..i][j + 1];
        }
      }
      assert s[1..][i..] == s[i + 1..];
      WithoutAt(s[1..], x, i - 1);
      assert [s[0]] + s[1..][..i - 1] == s[..i];
    }
  }

  /** `r` is `s` with the element at one position `i`, which is `x`, cut out
      and the others kept in their order. */
  ghost predicate CutOut(s: seq<string>, x: string, r: seq<string>)
  {
    exists i :: 0 <= i < |s| && s[i] == x && r == s[..i] + s[i + 1..]
  }

  /** Removing a registered name from distinct names is a splice. */
  lemma WithoutSplice(s: seq<string>, x: string)
    requires x in s && Distinct(s)
    ensures CutOut(s, x, Without(s, x))
  {
    var i :| 0 <= i < |s| && s[i] == x;
    assert x !in s[..i] by {
      forall j | 0 <= j < i ensures s[..i][j] != x {
        assert s[..i][j] == s[j];
      }
    }
    var after := s[i + 1..];
    assert x !in after by {
      forall j | 0 <= j < |after| ensures after[j] != x {
        assert after[j] == s[i + 1 + j];
      }
    }
    WithoutAt(s, x, i);
  }

  /** `registerIndex(name, indexer)`: one registration per name. */
  function RegisterIndex(l: Ledger, name: string, indexer: Indexer): (r: Result<Ledger, Error>)
    ensures r.Failure? <==> name in l.indexes
    ensures r.Failure? ==> r.error == IndexAlreadyRegistered(name)
    ensures r.Success? && Valid(l) ==> Valid(r.value)
    ensures r.Success? && Ordered(l) ==> Ordered(r.value)
    ensures r.Success? && Ordered(l) && Distinct(l.names) ==> Distinct(r.value.names)
    ensures r.Success? ==>
      && r.value.wallets == l.wallets && r.value.next == l.next
      && r.value.names == l.names + [name]
      && r.value.indexes.Keys == l.indexes.Keys + {name}
      && r.value.indexes[name].indexer == indexer
      && r.value.indexes[name].entries == map[]
      && (forall n :: n in l.indexes ==> r.value.indexes[n] == l.indexes[n])
  {
    if name in l.indexes then
      Failure(IndexAlreadyRegistered(name))
    else
      Success(l.(names := l.names + [name], indexes := l.indexes[name := EmptyIndex(indexer)]))
  }

  /** `unregisterIndex(name)`: only a registered name can be removed. */
  function UnregisterIndex(l: Ledger, name: string): (r: Result<Ledger, Error>)
    ensures r.Failure? <==> name !in l.indexes
    ensures r.Failure? ==> r.error == IndexNotFound(name)
    ensures r.Success? && Valid(l) ==> Valid(r.value)
    ensures r.Success? && Ordered(l) ==> Ordered(r.value)
    ensures r.Success? && Distinct(l.names) ==> Distinct(r.value.names)
    ensures r.Success? ==>
      && r.value.wallets == l.wallets && r.value.next == l.next
      && r.value.indexes.Keys == l.indexes.Keys - {name}
      && (forall n :: n in r.value.indexes ==> r.value.indexes[n] == l.indexes[n])
      && (forall n :: n in r.value.names <==> n in l.names && n != name)
    ensures r.Success? && Ordered(l) && Distinct(l.names) ==> CutOut(l.names, name, r.value.names)
  {
    if name !in l.indexes then
      Failure(IndexNotFound(name))
    else
      WithoutDistinct(l.names, name);
      assert Ordered(l) && Distinct(l.names) ==> CutOut(l.names, name, Without(l.names, name)) by {
        if Ordered(l) && Distinct(l.names) {
          WithoutSplice(l.names, name);
        }
      }
      Success(l.(names := Without(l.names, name), indexes := l.indexes - {name}))
  }

  /** `getIndex(name)`. */
  function GetIndex(l: Ledger, name: string): (r: Result<WalletIndex, Error>)
    ensures r.Success? <==> name in l.indexes
    ensures r.Success? ==> r.value == l.indexes[name]
    ensures r.Failure? ==> r.error == IndexNotFound(name)
  {
    if name in l.indexes then Success(l.indexes[name]) else Failure(IndexNotFound(name))
  }

  /** Registering a fresh name and unregistering it again restores the registry,
      including the order of the other names. */
  lemma {:induction false} RegisterUnregisterRoundTrip(l: Ledger, name: string, indexer: Indexer)
    requires Ordered(l) && name !in l.indexes
    ensures RegisterIndex(l, name, indexer).Success?
    ensures UnregisterIndex(RegisterIndex(l, name, indexer).value, name) == Success(l)
  {
    var l1 := RegisterIndex(l, name, indexer).value;
    WithoutLast(l.names, name);
    assert l1.indexes - {name} == l.indexes;
  }

  /** The six standard indexes, empty. */
  function StandardIndexes(): (m: map<string, WalletIndex>)
    ensures m.Keys == {Addresses, PublicKeys, Usernames, Resignations, Locks, Ipfs}
    ensures forall n :: n in m ==> m[n].entries == map[]
    ensures m[Addresses].indexer.AddressIndexer? && m[PublicKeys].indexer.PublicKeyIndexer?
    ensures m[Usernames].indexer.UsernameIndexer? && m[Resignations].indexer.ResignationIndexer?
    ensures m[Locks].indexer.LockIndexer? && m[Ipfs].indexer.IpfsIndexer?
  {
    StandardNamesDistinct();
    map[Addresses := EmptyIndex(AddressIndexer), PublicKeys := EmptyIndex(PublicKeyIndexer),
        Usernames := EmptyIndex(UsernameIndexer), Resignations := EmptyIndex(ResignationIndexer),
        Locks := EmptyIndex(LockIndexer), Ipfs := EmptyIndex(IpfsIndexer)]
  }

  /** The constructor: `reset()` on no indexes, then the six standard
      registrations in order. */
  function New(): (l: Ledger)
    ensures Valid(l) && Ordered(l) && Distinct(l.names)
    ensures l.names == StandardNames
    ensures Standard(l)
    ensures l.wallets == map[]
    ensures forall n :: n in l.indexes ==> l.indexes[n].entries == map[]
  {
    StandardNamesDistinct();
    Ledger(map[], 0, StandardNames, StandardIndexes())
  }

  /** `registerIndex` on a state that may already have thrown. */
  function ThenRegister(r: Result<Ledger, Error>, name: string, indexer: Indexer): Result<Ledger, Error>
  {
    if r.Failure? then r else RegisterIndex(r.value, name, indexer)
  }

  /** One registration of a fresh name appends it and adds its empty index. */
  lemma RegisterFresh(l: Ledger, name: string, indexer: Indexer)
    requires name !in l.indexes
    ensures ThenRegister(Success(l), name, indexer) ==
      Success(l.(names := l.names + [name], indexes := l.indexes[name := EmptyIndex(indexer)]))
  {
  }

  /** `registerIndex` for each name in turn, with its indexer. */
  function RegisterAll(r: Result<Ledger, Error>, names: seq<string>, indexers: seq<Indexer>): Result<Ledger, Error>
    requires |names| == |indexers|
    decreases |names|
  {
    if names == [] then r else RegisterAll(ThenRegister(r, names[0], indexers[0]), names[1..], indexers[1..])
  }

  /** `indexes` with an empty index added for each name in turn. */
  function Added(indexes: map<string, WalletIndex>, names: seq<string>, indexers: seq<Indexer>): map<string, WalletIndex>
    requires |names| == |indexers|
    decreases |names|
  {
    if names == [] then indexes else Added(indexes[names[0] := EmptyIndex(indexers[0])], names[1..], indexers[1..])
  }

  /** Registering distinct fresh names never throws: the names are appended in
      order, each with its empty index. */
  lemma {:induction false} RegisterAllFresh(l: Ledger, names: seq<string>, indexers: seq<Indexer>)
    requires |names| == |indexers| && Distinct(names)
    requires forall i :: 0 <= i < |names| ==> names[i] !in l.indexes
    ensures RegisterAll(Success(l), names, indexers) ==
      Success(l.(names := l.names + names, indexes := Added(l.indexes, names, indexers)))
    decreases |names|
  {
    if names == [] {
      assert l.names + names == l.names;
    } else {
      var l1 := l.(names := l.names + [names[0]], indexes := l.indexes[names[0] := EmptyIndex(indexers[0])]);
      var rest, ix := names[1..], indexers[1..];
      assert RegisterAll(Success(l), names, indexers) == RegisterAll(Success(l1), rest, ix) by {
        RegisterFresh(l, names[0], indexers[0]);
      }
      assert Distinct(rest) by {
        forall i, j | 0 <= i < j < |rest| ensures rest[i] != rest[j] {
          assert rest[i] == names[i + 1] && rest[j] == names[j + 1];
        }
      }
      assert forall i :: 0 <= i < |rest| ==> rest[i] !in l1.indexes by {
        forall i | 0 <= i < |rest| ensures rest[i] !in l1.indexes {
          assert rest[i] == names[i + 1];
        }
      }
      RegisterAllFresh(l1, rest, ix);
      assert Added(l.indexes, names, indexers) == Added(l1.indexes, rest, ix);
      assert l1.names + rest == l.names + names;
    }
  }

  /** The indexers the constructor registers, in order. */
  const StandardIndexers: seq<Indexer> :=
    [AddressIndexer, PublicKeyIndexer, UsernameIndexer, ResignationIndexer, LockIndexer, IpfsIndexer]

  /** The constructor is exactly its six registrations, in order, on a
      manager without indexes: none of them throws. */
  lemma NewRegistersStandard()
    ensures RegisterAll(Success(Reset(Ledger(map[], 0, [], map[]))), StandardNames, StandardIndexers) == Success(New())
  {
    StandardNamesDistinct();
    var l0 := Ledger(map[], 0, [], map[]);
    assert Reset(l0) == l0;
    RegisterAllFresh(l0, StandardNames, StandardIndexers);
    assert [] + StandardNames == StandardNames;
    AddedSix(map[], StandardNames, StandardIndexers);
  }

  /** `Added` over six names, spelled out. */
  lemma AddedSix(m: map<string, WalletIndex>, n: seq<string>, ix: seq<Indexer>)
    requires |n| == 6 && |ix| == 6
    ensures Added(m, n, ix) ==
      m[n[0] := EmptyIndex(ix[0])][n[1] := EmptyIndex(ix[1])][n[2] := EmptyIndex(ix[2])]
       [n[3] := EmptyIndex(ix[3])][n[4] := EmptyIndex(ix[4])][n[5] := EmptyIndex(ix[5])]
  {
    var n1, x1 := n[1..], ix[1..];
    var n2, x2 := n1[1..], x1[1..];
    var n3, x3 := n2[1..], x2[1..];
    var n4, x4 := n3[1..], x3[1..];
    var n5, x5 := n4[1..], x4[1..];
    var n6, x6 := n5[1..], x5[1..];
    assert n1[0] == n[1] && n2[0] == n[2] && n3[0] == n[3] && n4[0] == n[4] && n5[0] == n[5];
    assert x1[0] == ix[1] && x2[0] == ix[2] && x3[0] == ix[3] && x4[0] == ix[4] && x5[0] == ix[5];
    assert n6 == [] && x6 == [];
    var m1 := m[n[0] := EmptyIndex(ix[0])];
    var m2 := m1[n[1] := EmptyIndex(ix[1])];
    var m3 := m2[n[2] := EmptyIndex(ix[2])];
    var m4 := m3[n[3] := EmptyIndex(ix[3])];
    var m5 := m4[n[4] := EmptyIndex(ix[4])];
    var m6 := m5[n[5] := EmptyIndex(ix[5])];
    assert Added(m5, n5, x5) == Added(m6, n6, x6) == m6;
    assert Added(m3, n3, x3) == Added(m4, n4, x4) == Added(m5, n5, x5);
    assert Added(m1, n1, x1) == Added(m2, n2, x2) == Added(m3, n3, x3);
    assert Added(m, n, ix) == Added(m1, n1, x1);
  }

  // ---------------------------------------------------------------------------
  // reindex, index, reset

  /** The loop of `reindex`: each listed index runs its indexer on the wallet.
      A name listed twice is harmless, since indexing is idempotent. */
  function ReindexEach(indexes: map<string, WalletIndex>, names: seq<string>, w: Wallet, h: Handle): (r: map<string, WalletIndex>)
    ensures r.Keys == indexes.Keys
    ensures forall n :: n in indexes && n in names ==> r[n] == IndexWallet(indexes[n], w, h)
    ensures forall n :: n in indexes && n !in names ==> r[n] == indexes[n]
    decreases |names|
  {
    if names == [] then indexes
    else if names[0] in indexes then
      IndexWalletIdempotent(indexes[names[0]], w, h);
      ReindexEach(indexes[names[0] := IndexWallet(indexes[names[0]], w, h)], names[1..], w, h)
    else
      ReindexEach(indexes, names[1..], w, h)
  }

  /** `reindex(wallet)`: every registered index runs its indexer on the wallet. */
  function Reindex(l: Ledger, h: Handle): (r: Ledger)
    requires h in l.wallets
    ensures Valid(l) ==> Valid(r)
    ensures r.wallets == l.wallets && r.next == l.next && r.names == l.names
    ensures r.indexes.Keys == l.indexes.Keys
    ensures forall n :: n in l.indexes ==>
      r.indexes[n].indexer == l.indexes[n].indexer && l.indexes[n].entries.Keys <= r.indexes[n].entries.Keys
    ensures Ordered(l) ==> Ordered(r)
    ensures forall n :: n in l.indexes && n in l.names ==> r.indexes[n] == IndexWallet(l.indexes[n], l.wallets[h], h)
  {
    l.(indexes := ReindexEach(l.indexes, l.names, l.wallets[h], h))
  }

  /** Indexing is idempotent: a second `reindex` of an unchanged wallet changes
      no index. */
  lemma ReindexIdempotent(l: Ledger, h: Handle)
    requires h in l.wallets && Ordered(l)
    ensures Reindex(Reindex(l, h), h) == Reindex(l, h)
  {
    var r1 := Reindex(l, h);
    var r2 := Reindex(r1, h);
    forall n | n in l.indexes
      ensures r2.indexes[n] == r1.indexes[n]
    {
      IndexWalletIdempotent(l.indexes[n], l.wallets[h], h);
    }
    SameIndexes(r2.indexes, r1.indexes);
  }

  /** The address and public-key indexers set the wallet's address and key,
      when present, and nothing else. */
  lemma ReindexIdentity(l: Ledger, h: Handle)
    requires h in l.wallets && Ordered(l) && Standard(l)
    ensures var r := Reindex(l, h); var w := l.wallets[h];
      && (w.address != "" ==> r.indexes[Addresses].entries == l.indexes[Addresses].entries[w.address := h])
      && (w.address == "" ==> r.indexes[Addresses] == l.indexes[Addresses])
      && (w.publicKey != "" ==> r.indexes[PublicKeys].entries == l.indexes[PublicKeys].entries[w.publicKey := h])
      && (w.publicKey == "" ==> r.indexes[PublicKeys] == l.indexes[PublicKeys])
  {
    IndexWalletStandard(l.indexes[Addresses], l.wallets[h], h);
    IndexWalletStandard(l.indexes[PublicKeys], l.wallets[h], h);
  }

  /** The username is indexed only for delegates, and the resignation index
      gets the username only for resigned delegates. */
  lemma ReindexDelegates(l: Ledger, h: Handle)
    requires h in l.wallets && Ordered(l) && Standard(l)
    ensures var r := Reindex(l, h); var w := l.wallets[h];
      && (IsDelegate(w) ==> r.indexes[Usernames].entries == l.indexes[Usernames].entries[w.delegate.value.username := h])
      && (!IsDelegate(w) ==> r.indexes[Usernames] == l.indexes[Usernames])
      && (IsResigned(w) ==> r.indexes[Resignations].entries == l.indexes[Resignations].entries[w.delegate.value.username := h])
      && (!IsResigned(w) ==> r.indexes[Resignations] == l.indexes[Resignations])
  {
    IndexWalletStandard(l.indexes[Usernames], l.wallets[h], h);
    IndexWalletStandard(l.indexes[Resignations], l.wallets[h], h);
  }

  /** Each HTLC lock id and each IPFS hash of the wallet gets its own entry. */
  lemma ReindexLocksAndHashes(l: Ledger, h: Handle)
    requires h in l.wallets && Ordered(l) && Standard(l)
    ensures var r := Reindex(l, h); var w := l.wallets[h];
      && r.indexes[Locks].entries.Keys == l.indexes[Locks].entries.Keys + w.locks.Keys
      && (forall id :: id in w.locks ==> r.indexes[Locks].entries[id] == h)
      && r.indexes[Ipfs].entries.Keys == l.indexes[Ipfs].entries.Keys + w.hashes
      && (forall hash :: hash in w.hashes ==> r.indexes[Ipfs].entries[hash] == h)
  {
    IndexWalletStandard(l.indexes[Locks], l.wallets[h], h);
    IndexWalletStandard(l.indexes[Ipfs], l.wallets[h], h);
  }

  /** `index(wallets)`: `reindex` of each wallet in turn. */
  function Index(l: Ledger, hs: seq<Handle>): (r: Ledger)
    requires forall i :: 0 <= i < |hs| ==> hs[i] in l.wallets
    ensures Valid(l) ==> Valid(r)
    ensures r.wallets == l.wallets && r.next == l.next && r.names == l.names
    ensures r.indexes.Keys == l.indexes.Keys
    ensures Ordered(l) ==> Ordered(r)
    ensures forall n :: n in l.indexes ==> r.indexes[n].indexer == l.indexes[n].indexer
    ensures forall n :: n in l.indexes ==> l.indexes[n].entries.Keys <= r.indexes[n].entries.Keys
    decreases |hs|
  {
    if hs == [] then l else Index(Reindex(l, hs[0]), hs[1..])
  }

  /** Every key that any of the wallets derives ends up in the index. */
  lemma {:induction false} IndexCovers(l: Ledger, hs: seq<Handle>, i: nat, n: string, k: string)
    requires forall j :: 0 <= j < |hs| ==> hs[j] in l.wallets
    requires i < |hs| && n in l.indexes && n in l.names
    requires k in KeysOf(l.indexes[n].indexer, l.wallets[hs[i]])
    ensures k in Index(l, hs).indexes[n].entries
    decreases i
  {
    var l1 := Reindex(l, hs[0]);
    var rest := hs[1..];
    assert forall j :: 0 <= j < |rest| ==> rest[j] in l1.wallets;
    if i == 0 {
      assert k in l1.indexes[n].entries by {
        assert l1.indexes[n] == IndexWallet(l.indexes[n], l.wallets[hs[0]], hs[0]);
      }
    } else {
      assert rest[i - 1] == hs[i];
      assert l1.wallets == l.wallets && l1.names == l.names && l1.indexes[n].indexer == l.indexes[n].indexer;
      IndexCovers(l1, rest, i - 1, n, k);
    }
    assert Index(l, hs) == Index(l1, rest);
  }

  /** A key that none of the wallets derives for index `n` keeps its entry, or
      its absence. */
  lemma {:induction false} IndexKeepsUnderived(l: Ledger, hs: seq<Handle>, n: string, k: string)
    requires forall j :: 0 <= j < |hs| ==> hs[j] in l.wallets
    requires n in l.indexes
    requires forall j :: 0 <= j < |hs| ==> k !in KeysOf(l.indexes[n].indexer, l.wallets[hs[j]])
    ensures Lookup(Index(l, hs).indexes[n].entries, k) == Lookup(l.indexes[n].entries, k)
    decreases |hs|
  {
    if hs != [] {
      var l1 := Reindex(l, hs[0]);
      var rest := hs[1..];
      assert forall j :: 0 <= j < |rest| ==> rest[j] in l1.wallets && rest[j] == hs[j + 1];
      assert Lookup(l1.indexes[n].entries, k) == Lookup(l.indexes[n].entries, k) by {
        assert k !in KeysOf(l.indexes[n].indexer, l.wallets[hs[0]]);
        if n in l.names {
          assert l1.indexes[n] == IndexWallet(l.indexes[n], l.wallets[hs[0]], hs[0]);
        } else {
          assert l1.indexes[n] == l.indexes[n];
        }
      }
      IndexKeepsUnderived(l1, rest, n, k);
      assert Index(l, hs) == Index(l1, rest);
    }
  }

  /** The last wallet of the list that derives a key is the one the key refers
      to afterwards: `index` runs `reindex` in list order, and each run
      overwrites the entries it sets. */
  lemma {:induction false} IndexLastWins(l: Ledger, hs: seq<Handle>, i: nat, n: string, k: string)
    requires forall j :: 0 <= j < |hs| ==> hs[j] in l.wallets
    requires i < |hs| && n in l.indexes && n in l.names
    requires k in KeysOf(l.indexes[n].indexer, l.wallets[hs[i]])
    requires forall j :: i < j < |hs| ==> k !in KeysOf(l.indexes[n].indexer, l.wallets[hs[j]])
    ensures k in Index(l, hs).indexes[n].entries
    ensures Index(l, hs).indexes[n].entries[k] == hs[i]
    decreases i
  {
    var l1 := Reindex(l, hs[0]);
    var rest := hs[1..];
    assert forall j :: 0 <= j < |rest| ==> rest[j] in l1.wallets && rest[j] == hs[j + 1];
    assert l1.wallets == l.wallets && l1.names == l.names && l1.indexes[n].indexer == l.indexes[n].indexer;
    if i == 0 {
      assert l1.indexes[n] == IndexWallet(l.indexes[n], l.wallets[hs[0]], hs[0]);
      IndexKeepsUnderived(l1, rest, n, k);
    } else {
      IndexLastWins(l1, rest, i - 1, n, k);
    }
    assert Index(l, hs) == Index(l1, rest);
  }

  /** `reset()`: every index is emptied; the registrations stay. */
  function Reset(l: Ledger): (r: Ledger)
    ensures Valid(l) ==> Valid(r)
    ensures r.wallets == l.wallets && r.next == l.next && r.names == l.names
    ensures r.indexes.Keys == l.indexes.Keys
    ensures forall n :: n in l.indexes ==> r.indexes[n].indexer == l.indexes[n].indexer && r.indexes[n].entries == map[]
  {
    l.(indexes := map n | n in l.indexes :: EmptyIndex(l.indexes[n].indexer))
  }
}

=== FILE: lookups.dfy ===
/** The manager's lookup surface: `has*`, `find*`, `getNonce` and `forget*`.
    `findByAddress` and `findByPublicKey` may create or update a wallet, so they
    return the new state together with the wallet found. */
module Lookups {
  import opened Results
  import opened Wallets
  import opened WalletIndexes
  import opened Ledgers

  /** A lookup that may allocate: the state afterwards and the wallet found
      (`None` for `undefined`). */
  datatype Found = Found(ledger: Ledger, wallet: Option<Handle>)

  // ---------------------------------------------------------------------------
  // Scanning a list of index names

  /** None of the first `i` names is a registered index holding `key`, and all
      of them are registered. */
  ghost predicate MissesBefore(l: Ledger, names: seq<string>, key: string, i: nat)
    requires i <= |names|
  {
    forall j :: 0 <= j < i ==> names[j] in l.indexes && key !in l.indexes[names[j]].entries
  }

  /** Position `i` is where a scan of `names` for `key` stops: the first name
      that is unregistered or whose index holds the key. */
  ghost predicate StopsAt(l: Ledger, names: seq<string>, key: string, i: nat)
  {
    && i < |names|
    && MissesBefore(l, names, key, i)
    && (names[i] !in l.indexes || key in l.indexes[names[i]].entries)
  }

  /** The loop of `findByIndex` from position `i` on. */
  function ScanFrom(l: Ledger, names: seq<string>, key: string, i: nat): (r: Result<Option<Handle>, Error>)
    requires i <= |names| && MissesBefore(l, names, key, i)
    ensures r == Success(None) <==> MissesBefore(l, names, key, |names|)
    ensures r.Failure? ==> exists k: nat :: StopsAt(l, names, key, k) && names[k] !in l.indexes && r.error == IndexNotFound(names[k])
    ensures r.Success? && r.value.Some? ==>
      exists k: nat :: StopsAt(l, names, key, k) && names[k] in l.indexes && r.value.value == l.indexes[names[k]].entries[key]
    decreases |names| - i
  {
    if i == |names| then Success(None)
    else
      match GetIndex(l, names[i])
      case Failure(e) =>
        assert StopsAt(l, names, key, i);
        Failure(e)
      case Success(index) =>
        if key in index.entries then
          assert StopsAt(l, names, key, i);
          Success(Some(index.entries[key]))
        else
          ScanFrom(l, names, key, i + 1)
  }

  // ---------------------------------------------------------------------------
  // findByIndex, findByUsername, findById, has

  /** `findByIndex(names, key)`: the wallet of the first listed index holding the
      key, `undefined` when none does; a name that is not registered throws, but
      only if the scan reaches it. A single name is the one-element list. */
  function FindByIndex(l: Ledger, names: seq<string>, key: string): (r: Result<Option<Handle>, Error>)
    ensures r == Success(None) <==> MissesBefore(l, names, key, |names|)
    ensures r.Failure? ==> exists k: nat :: StopsAt(l, names, key, k) && names[k] !in l.indexes && r.error == IndexNotFound(names[k])
    ensures r.Success? && r.value.Some? ==>
      exists k: nat :: StopsAt(l, names, key, k) && names[k] in l.indexes && r.value.value == l.indexes[names[k]].entries[key]
  {
    ScanFrom(l, names, key, 0)
  }

  /** `findByUsername(username)`. */
  function FindByUsername(l: Ledger, username: string): (r: Result<Option<Handle>, Error>)
    ensures r.Failure? <==> Usernames !in l.indexes
    ensures r.Failure? ==> r.error == IndexNotFound(Usernames)
    ensures r.Success? ==> r.value == Lookup(l.indexes[Usernames].entries, username)
  {
    var r := FindByIndex(l, [Usernames], username);
    assert r.Success? && r.value.Some? ==> StopsAt(l, [Usernames], username, 0);
    r
  }

  /** `findById(id)`: the first registered index, in registration order, that
      holds the id. */
  function FindById(l: Ledger, id: string): (r: Option<Handle>)
    requires Ordered(l)
    ensures r.None? <==> forall n :: n in l.indexes ==> id !in l.indexes[n].entries
    ensures r.Some? ==>
      exists k: nat :: StopsAt(l, l.names, id, k) && r.value == l.indexes[l.names[k]].entries[id]
  {
    var r := FindByIndex(l, l.names, id);
    if r.Success? then
      assert r.value.None? ==> forall n :: n in l.indexes ==> id !in l.indexes[n].entries by {
        if r.value.None? {
          forall n | n in l.indexes ensures id !in l.indexes[n].entries {
            var j :| 0 <= j < |l.names| && l.names[j] == n;
          }
        }
      }
      r.value
    else
      assert false;
      None
  }

  /** `has(key)`: some registered index holds the key. */
  function Has(l: Ledger, key: string): (b: bool)
    requires Ordered(l)
    ensures b <==> exists n :: n in l.indexes && key in l.indexes[n].entries
  {
    FindById(l, key).Some?
  }

  /** `hasByIndex(name, key)`. */
  function HasByIndex(l: Ledger, name: string, key: string): (r: Result<bool, Error>)
    ensures r.Failure? <==> name !in l.indexes
    ensures r.Failure? ==> r.error == IndexNotFound(name)
    ensures r.Success? ==> (r.value <==> key in l.indexes[name].entries)
  {
    var index :- GetIndex(l, name);
    Success(key in index.entries)
  }

  function HasByAddress(l: Ledger, address: string): (r: Result<bool, Error>)
    ensures r.Success? <==> Addresses in l.indexes
    ensures r.Success? ==> (r.value <==> address in l.indexes[Addresses].entries)
  {
    HasByIndex(l, Addresses, address)
  }

  function HasByPublicKey(l: Ledger, publicKey: string): (r: Result<bool, Error>)
    ensures r.Success? <==> PublicKeys in l.indexes
    ensures r.Success? ==> (r.value <==> publicKey in l.indexes[PublicKeys].entries)
  {
    HasByIndex(l, PublicKeys, publicKey)
  }

  function HasByUsername(l: Ledger, username: string): (r: Result<bool, Error>)
    ensures r.Success? <==> Usernames in l.indexes
    ensures r.Success? ==> (r.value <==> username in l.indexes[Usernames].entries)
  {
    HasByIndex(l, Usernames, username)
  }

  // ---------------------------------------------------------------------------
  // findByAddress, findByPublicKey, getNonce

  /** `findByAddress(address)`: a non-empty address the address index does not
      know gets a brand-new wallet, entered in the address index only. */
  function FindByAddress(l: Ledger, address: string): (r: Result<Found, Error>)
    requires Valid(l)
    ensures r.Failure? <==> Addresses !in l.indexes
    ensures r.Failure? ==> r.error == IndexNotFound(Addresses)
    ensures r.Success? ==> Keeps(l, r.value.ledger)
    ensures r.Success? && r.value.wallet.Some? ==> r.value.wallet.value in r.value.ledger.wallets
    ensures r.Success? && (address == "" || address in l.indexes[Addresses].entries) ==>
      r.value == Found(l, Lookup(l.indexes[Addresses].entries, address))
    ensures r.Success? && address != "" && address !in l.indexes[Addresses].entries ==>
      r.value.wallet.Some? &&
      var h := r.value.wallet.value;
      && h !in l.wallets
      && r.value.ledger.wallets == l.wallets[h := NewWallet(address)]
      && r.value.ledger.names == l.names
      && r.value.ledger.indexes == l.indexes[Addresses := l.indexes[Addresses].(entries := l.indexes[Addresses].entries[address := h])]
  {
    var index :- GetIndex(l, Addresses);
    if address != "" && address !in index.entries then
      var (l1, h) := Allocate(l, NewWallet(address));
      var l2 := SetEntry(l1, Addresses, address, h);
      Success(Found(l2, Some(h)))
    else
      Success(Found(l, Lookup(index.entries, address)))
  }

  /** Once an address is known, looking it up again changes nothing and yields
      the same wallet. */
  lemma FindByAddressIdempotent(l: Ledger, address: string)
    requires Valid(l) && Addresses in l.indexes
    ensures var r := FindByAddress(l, address).value;
      FindByAddress(r.ledger, address) == Success(r)
  {
  }

  /** The wallet `findByAddress` returns for a non-empty address is a wallet of
      the arena and is the one the address index now holds. */
  lemma FindByAddressResolves(l: Ledger, address: string)
    requires Valid(l) && Addresses in l.indexes && address != ""
    ensures var r := FindByAddress(l, address).value;
      && r.wallet.Some? && r.wallet.value in r.ledger.wallets
      && address in r.ledger.indexes[Addresses].entries
      && r.ledger.indexes[Addresses].entries[address] == r.wallet.value
  {
  }

  /** `findByPublicKey(publicKey)`: for a non-empty key the public-key index does
      not know, the derived address is looked up (creating its wallet if
      needed), the key is attached to that wallet and entered in the public-key
      index. `derive` is address derivation from a public key. */
  function FindByPublicKey(l: Ledger, derive: string -> Address, publicKey: string): (r: Result<Found, Error>)
    requires Valid(l)
    ensures PublicKeys !in l.indexes ==> r == Failure(IndexNotFound(PublicKeys))
    ensures r.Success? ==> PublicKeys in l.indexes && Keeps(l, r.value.ledger)
    ensures r.Success? && r.value.wallet.Some? ==> r.value.wallet.value in r.value.ledger.wallets
    ensures r.Success? && (publicKey == "" || publicKey in l.indexes[PublicKeys].entries) ==>
      r.value == Found(l, Lookup(l.indexes[PublicKeys].entries, publicKey))
    ensures PublicKeys in l.indexes && publicKey != "" && publicKey !in l.indexes[PublicKeys].entries ==>
      (r.Failure? <==> Addresses !in l.indexes)
    ensures PublicKeys in l.indexes && Addresses !in l.indexes && publicKey != "" && publicKey !in l.indexes[PublicKeys].entries ==>
      r == Failure(IndexNotFound(Addresses))
  {
    var index :- GetIndex(l, PublicKeys);
    if publicKey != "" && publicKey !in index.entries then
      var found :- FindByAddress(l, derive(publicKey));
      var h := found.wallet.value;
      var l1 := SetWallet(found.ledger, h, found.ledger.wallets[h].(publicKey := publicKey));
      var l2 := SetEntry(l1, PublicKeys, publicKey, h);
      KeepsTransitive(l, found.ledger, l1);
      KeepsTransitive(l, l1, l2);
      Success(Found(l2, Some(h)))
    else
      Success(Found(l, Lookup(index.entries, publicKey)))
  }

  /** A first lookup of a public key attaches it: the key's entry and the derived
      address's entry refer to one wallet, an already known wallet of that
      address when there is one, and that wallet now carries the key; nothing
      else changes. */
  lemma FindByPublicKeyAttaches(l: Ledger, derive: string -> Address, publicKey: string)
    requires Valid(l) && Addresses in l.indexes && PublicKeys in l.indexes
    requires publicKey != "" && publicKey !in l.indexes[PublicKeys].entries
    ensures var r := FindByPublicKey(l, derive, publicKey);
      var address := derive(publicKey);
      && r.Success? && r.value.wallet.Some?
      && var h := r.value.wallet.value;
      var l' := r.value.ledger;
      && l'.indexes[PublicKeys].entries == l.indexes[PublicKeys].entries[publicKey := h]
      && l'.indexes[Addresses].entries == l.indexes[Addresses].entries[address := h]
      && h in l'.wallets && l'.wallets[h].publicKey == publicKey
      && (address in l.indexes[Addresses].entries ==>
            && h == l.indexes[Addresses].entries[address]
            && l'.wallets == l.wallets[h := l.wallets[h].(publicKey := publicKey)])
      && (address !in l.indexes[Addresses].entries ==>
            && h !in l.wallets
            && l'.wallets == l.wallets[h := NewWallet(address).(publicKey := publicKey)])
      && (forall n :: n in l.indexes && n != Addresses && n != PublicKeys ==> l'.indexes[n] == l.indexes[n])
      && l'.indexes.Keys == l.indexes.Keys && l'.names == l.names
  {
    StandardNamesDistinct();
  }

  /** Looking up a public key a second time changes nothing and yields the same
      wallet. */
  lemma FindByPublicKeyIdempotent(l: Ledger, derive: string -> Address, publicKey: string)
    requires Valid(l) && Addresses in l.indexes && PublicKeys in l.indexes
    ensures var r := FindByPublicKey(l, derive, publicKey).value;
      FindByPublicKey(r.ledger, derive, publicKey) == Success(r)
  {
    StandardNamesDistinct();
    if publicKey != "" && publicKey !in l.indexes[PublicKeys].entries {
      FindByPublicKeyAttaches(l, derive, publicKey);
    }
  }

  /** `getNonce(publicKey)`: the nonce of the wallet holding the key, and zero
      for a key the public-key index does not know. */
  function GetNonce(l: Ledger, derive: string -> Address, publicKey: string): (r: Result<nat, Error>)
    requires Valid(l)
    ensures r.Failure? <==> PublicKeys !in l.indexes
    ensures r.Success? && publicKey !in l.indexes[PublicKeys].entries ==> r.value == 0
    ensures r.Success? && publicKey in l.indexes[PublicKeys].entries ==>
      r.value == l.wallets[l.indexes[PublicKeys].entries[publicKey]].nonce
  {
    var known :- HasByPublicKey(l, publicKey);
    if known then
      var found := FindByPublicKey(l, derive, publicKey).value;
      Success(l.wallets[found.wallet.value].nonce)
    else
      Success(0)
  }

  /** The lookup `getNonce` makes for a known key creates and changes nothing. */
  lemma GetNonceCreatesNothing(l: Ledger, derive: string -> Address, publicKey: string)
    requires Valid(l) && PublicKeys in l.indexes
    requires HasByPublicKey(l, publicKey) == Success(true)
    ensures FindByPublicKey(l, derive, publicKey).Success?
    ensures FindByPublicKey(l, derive, publicKey).value.ledger == l
  {
  }

  // ---------------------------------------------------------------------------
  // forget*

  /** `l'` is `l` with `key` removed from the index `name`: the wallets, the
      registry, the other entries of that index and every other index stay. */
  ghost predicate Forgets(l: Ledger, l': Ledger, name: string, key: string)
  {
    && name in l.indexes
    && l'.wallets == l.wallets && l'.next == l.next && l'.names == l.names
    && l'.indexes.Keys == l.indexes.Keys
    && l'.indexes[name].indexer == l.indexes[name].indexer
    && l'.indexes[name].entries.Keys == l.indexes[name].entries.Keys - {key}
    && (forall k :: k in l'.indexes[name].entries ==> l'.indexes[name].entries[k] == l.indexes[name].entries[k])
    && (forall n :: n in l.indexes && n != name ==> l'.indexes[n] == l.indexes[n])
  }

  /** `forgetByIndex(name, key)`: the key leaves that index; the wallet and every
      other index stay. */
  function ForgetByIndex(l: Ledger, name: string, key: string): (r: Result<Ledger, Error>)
    ensures r.Failure? <==> name !in l.indexes
    ensures r.Failure? ==> r.error == IndexNotFound(name)
    ensures r.Success? ==> Forgets(l, r.value, name, key)
    ensures r.Success? && Valid(l) ==> Valid(r.value)
  {
    var index :- GetIndex(l, name);
    Success(l.(indexes := l.indexes[name := index.(entries := index.entries - {key})]))
  }

  function ForgetByAddress(l: Ledger, address: string): (r: Result<Ledger, Error>)
    ensures r.Success? <==> Addresses in l.indexes
    ensures r.Success? ==> Forgets(l, r.value, Addresses, address)
    ensures r.Success? ==> address !in r.value.indexes[Addresses].entries
  {
    ForgetByIndex(l, Addresses, address)
  }

  function ForgetByPublicKey(l: Ledger, publicKey: string): (r: Result<Ledger, Error>)
    ensures r.Success? <==> PublicKeys in l.indexes
    ensures r.Success? ==> Forgets(l, r.value, PublicKeys, publicKey)
    ensures r.Success? ==> publicKey !in r.value.indexes[PublicKeys].entries
  {
    ForgetByIndex(l, PublicKeys, publicKey)
  }

  function ForgetByUsername(l: Ledger, username: string): (r: Result<Ledger, Error>)
    ensures r.Success? <==> Usernames in l.indexes
    ensures r.Success? ==> Forgets(l, r.value, Usernames, username)
    ensures r.Success? ==> username !in r.value.indexes[Usernames].entries
  {
    ForgetByIndex(l, Usernames, username)
  }

  /** Forgetting an address that `findByAddress` has just created restores every
      index; the orphaned wallet record stays in the arena. */
  lemma ForgetUndoesFreshFindByAddress(l: Ledger, address: string)
    requires Valid(l) && Addresses in l.indexes
    requires address != "" && address !in l.indexes[Addresses].entries
    ensures ForgetByAddress(FindByAddress(l, address).value.ledger, address).value.indexes == l.indexes
  {
    var l1 := FindByAddress(l, address).value.ledger;
    var l2 := ForgetByAddress(l1, address).value;
    assert l2.indexes[Addresses].entries == l.indexes[Addresses].entries;
    SameIndexes(l2.indexes, l.indexes);
  }
}

=== FILE: results.dfy ===
/** Failure-compatible wrappers used throughout the model, and the errors the
    wallet manager raises. A thrown exception of the source becomes a `Failure`. */
module Results {

  datatype Option<+T> = None | Some(value: T)

  datatype Result<+T, +E> = Success(value: T) | Failure(error: E) {

    predicate IsFailure() {
      Failure?
    }

    function PropagateFailure<U>(): Result<U, E>
      requires Failure?
    {
      Failure(error)
    }

    function Extract(): T
      requires Success?
    {
      value
    }
  }

  /** `m.get(k)` of a JavaScript object used as a dictionary: `undefined` when absent. */
  function Lookup<K, V>(m: map<K, V>, k: K): Option<V>
  {
    if k in m then Some(m[k]) else None
  }

  /** Everything the wallet manager can throw. `GeneratorNotFound` is the one
      that makes the node call `forceExit`; it is reported as a halt. */
  datatype Error =
    | IndexAlreadyRegistered(name: string)
    | IndexNotFound(name: string)
    | UnknownTransactionType(kind: nat, typeGroup: nat)
    | HandlerFailed(reason: string)
      /** `Wallet.applyBlock` threw while crediting the generator. */
    | CreditFailed(reason: string)
      /** A lookup yielded no wallet and the code dereferenced it (a TypeError). */
    | UnresolvedWallet(key: string)
      /** The voted wallet has no `delegate.voteBalance` attribute to add to. */
    | NotADelegate(publicKey: string)
    | GeneratorNotFound(publicKey: string, blockId: string)
}

=== FILE: sweeps.dfy ===
/** The manager's loops over a block's transactions: the `for` over
    `block.transactions` in `applyBlock` and over their reverse in
    `revertBlock`, and the undo loop in each `catch`. Such a loop (called a
    sweep here) runs one transaction step after the other and stops at the
    first that throws; the lemmas say what rolling it back restores. */
module Sweeps {
  import opened Results
  import opened WalletIndexes
  import opened Ledgers
  import opened Transactions

  /** `array.reverse()`, as a value. */
  function Reverse<T>(s: seq<T>): (r: seq<T>)
    ensures |r| == |s|
    ensures forall i :: 0 <= i < |s| ==> r[i] == s[|s| - 1 - i]
  {
    if s == [] then [] else Reverse(s[1..]) + [s[0]]
  }

  // ---------------------------------------------------------------------------
  // Sweeping over transactions

  /** One transaction step as a sweep sees it. */
  type StepFn = (Ledger, Transaction) --> TxResult

  /** `f` steps any valid ledger to a valid ledger. */
  ghost predicate Steps(f: StepFn)
  {
    forall l, t :: Valid(l) ==> f.requires(l, t) && Valid(f(l, t).ledger)
  }

  /** Each step of `f` keeps the wallets and the index registry. */
  ghost predicate StepsKeep(f: StepFn)
  {
    forall l, t :: Valid(l) ==> f.requires(l, t) && Keeps(l, f(l, t).ledger)
  }

  /** Each step of `f` that goes through reports the transaction it was given,
      with the given direction. */
  ghost predicate StepsReport(f: StepFn, revert: bool)
  {
    forall l, t :: Valid(l) ==>
      && f.requires(l, t)
      && (f(l, t).Ok? ==> f(l, t).note.transaction == t && f(l, t).note.revert == revert)
  }

  /** `applyTransaction` or `revertTransaction`, with `currentBlock` fixed. */
  function StepOf(env: Env, c: Option<Block>, revert: bool): (f: StepFn)
    requires Sound(env)
    ensures Steps(f) && StepsKeep(f) && StepsReport(f, revert)
  {
    (l: Ledger, t: Transaction) requires Valid(l) && Sound(env) =>
      if revert then RevertTransaction(env, l, c, t) else ApplyTransaction(env, l, c, t)
  }

  /** A step of `StepOf` is the transaction step it stands for. */
  lemma StepOfIs(env: Env, c: Option<Block>, revert: bool, l: Ledger, t: Transaction)
    requires Sound(env) && Valid(l)
    ensures StepOf(env, c, revert)(l, t) ==
      if revert then RevertTransaction(env, l, c, t) else ApplyTransaction(env, l, c, t)
  {
  }

  /** A sweep: the ledger afterwards, the notifications sent, how many
      transactions went through, and the error that stopped it, if any. */
  datatype Sweep = Sweep(ledger: Ledger, notes: seq<Notification>, done: nat, error: Option<Error>)

  /** The loop `for (const transaction of transactions) await step(transaction)`:
      in array order, stopping at the first error. */
  function Replay(f: StepFn, l: Ledger, txs: seq<Transaction>): (r: Sweep)
    requires Valid(l) && Steps(f)
    ensures Valid(r.ledger)
    ensures r.done <= |txs| && |r.notes| == r.done
    ensures r.error.None? <==> r.done == |txs|
    decreases |txs|
  {
    if txs == [] then Sweep(l, [], 0, None)
    else
      match f(l, txs[0])
      case Err(l1, e) => Sweep(l1, [], 0, Some(e))
      case Ok(l1, n) =>
        var rest := Replay(f, l1, txs[1..]);
        Sweep(rest.ledger, [n] + rest.notes, rest.done + 1, rest.error)
  }

  /** A sweep keeps the wallets and the index registry, like each step. */
  lemma {:induction false} ReplayKeeps(f: StepFn, l: Ledger, txs: seq<Transaction>)
    requires Valid(l) && Steps(f) && StepsKeep(f)
    ensures Keeps(l, Replay(f, l, txs).ledger)
    decreases |txs|
  {
    if txs != [] && f(l, txs[0]).Ok? {
      var l1 := f(l, txs[0]).ledger;
      ReplayKeeps(f, l1, txs[1..]);
      KeepsTransitive(l, l1, Replay(f, l1, txs[1..]).ledger);
    }
  }

  /** A sweep tells consensus about each transaction it got through, in
      array order, with the sweep's direction. */
  lemma {:induction false} ReplayReports(f: StepFn, l: Ledger, txs: seq<Transaction>, revert: bool)
    requires Valid(l) && Steps(f) && StepsReport(f, revert)
    ensures var r := Replay(f, l, txs);
      forall i :: 0 <= i < r.done ==> r.notes[i].transaction == txs[i] && r.notes[i].revert == revert
    decreases |txs|
  {
    if txs != [] && f(l, txs[0]).Ok? {
      var s := f(l, txs[0]);
      ReplayReports(f, s.ledger, txs[1..], revert);
      var r := Replay(f, l, txs);
      var r' := Replay(f, s.ledger, txs[1..]);
      forall i | 0 < i < r.done
        ensures r.notes[i].transaction == txs[i] && r.notes[i].revert == revert
      {
        assert r.notes[i] == r'.notes[i - 1];
      }
    }
  }

  /** An undo of the first `k` transactions, last first, tells consensus of
      `txs[k - 1]` first and of `txs[0]` last. */
  lemma {:induction false} UndoReports(f: StepFn, l: Ledger, txs: seq<Transaction>, k: nat, revert: bool)
    requires Valid(l) && Steps(f) && StepsReport(f, revert) && k <= |txs|
    ensures forall j :: 0 <= j < Replay(f, l, Reverse(txs[..k])).done ==>
      && Replay(f, l, Reverse(txs[..k])).notes[j].transaction == txs[k - 1 - j]
      && Replay(f, l, Reverse(txs[..k])).notes[j].revert == revert
  {
    var back := Reverse(txs[..k]);
    ReplayReports(f, l, back, revert);
    assert forall j :: 0 <= j < k ==> back[j] == txs[k - 1 - j];
  }

  /** A sweep over `xs + ys` that gets through `xs` continues with `ys` from
      where it stood. */
  lemma {:induction false} ReplayAppend(f: StepFn, l: Ledger, xs: seq<Transaction>, ys: seq<Transaction>)
    requires Valid(l) && Steps(f)
    requires Replay(f, l, xs).error.None?
    ensures var p := Replay(f, l, xs);
      var q := Replay(f, p.ledger, ys);
      Replay(f, l, xs + ys) == Sweep(q.ledger, p.notes + q.notes, p.done + q.done, q.error)
    decreases |xs|
  {
    if xs == [] {
      assert xs + ys == ys;
    } else {
      var s := f(l, xs[0]);
      var p' := Replay(f, s.ledger, xs[1..]);
      var q := Replay(f, p'.ledger, ys);
      var r' := Replay(f, s.ledger, xs[1..] + ys);
      assert s.Ok? && Replay(f, l, xs) == Sweep(p'.ledger, [s.note] + p'.notes, p'.done + 1, p'.error);
      assert r' == Sweep(q.ledger, p'.notes + q.notes, p'.done + q.done, q.error) by {
        ReplayAppend(f, s.ledger, xs[1..], ys);
      }
      assert Replay(f, l, xs + ys) == Sweep(r'.ledger, [s.note] + r'.notes, r'.done + 1, r'.error) by {
        assert (xs + ys)[0] == xs[0] && (xs + ys)[1..] == xs[1..] + ys;
      }
      assert [s.note] + (p'.notes + q.notes) == ([s.note] + p'.notes) + q.notes;
    }
  }

  /** A sweep that stops does so at the first failing transaction: the ones
      before it went through, with the same notifications, and the failing one
      is the next in array order. */
  lemma {:induction false} ReplayStops(f: StepFn, l: Ledger, txs: seq<Transaction>)
    requires Valid(l) && Steps(f)
    ensures var r := Replay(f, l, txs);
      var p := Replay(f, l, txs[..r.done]);
      && p.error.None? && p.notes == r.notes && p.done == r.done
      && (r.error.Some? ==>
            && r.done < |txs|
            && f(p.ledger, txs[r.done]) == Err(r.ledger, r.error.value))
    decreases |txs|
  {
    if txs != [] {
      var r := Replay(f, l, txs);
      var s := f(l, txs[0]);
      if s.Ok? {
        ReplayStops(f, s.ledger, txs[1..]);
        var r' := Replay(f, s.ledger, txs[1..]);
        assert txs[..r.done] == [txs[0]] + txs[1..][..r'.done];
        assert txs[..r.done][1..] == txs[1..][..r'.done];
      } else {
        assert txs[..r.done] == [];
      }
    }
  }

  /** Every state a sweep passes through keeps the ledger invariant. */
  lemma KeepsWf(l: Ledger, l': Ledger)
    requires Wf(l) && Keeps(l, l')
    ensures Wf(l')
  {
  }

  /** A step that keeps the registry keeps it ordered, and well-formed when
      the standard indexes were all there. */
  lemma KeepsOrdered(l: Ledger, l': Ledger)
    requires Ordered(l) && Keeps(l, l')
    ensures Ordered(l') && (Standard(l) ==> Wf(l'))
  {
  }

  // ---------------------------------------------------------------------------
  // Undoing a sweep

  /** A successful step of `f` on a transaction whose parties are indexed
      keeps every indexed party indexed. */
  ghost predicate StepsKeepParties(f: StepFn)
  {
    forall l, t, u :: Wf(l) && PartiesIndexed(l, t) && PartiesIndexed(l, u) && f.requires(l, t) && f(l, t).Ok? ==>
      PartiesIndexed(f(l, t).ledger, u)
  }

  /** Parties indexed before a sweep whose steps keep them stay indexed after
      it. */
  lemma {:induction false} SweepKeepsParties(f: StepFn, l: Ledger, us: seq<Transaction>, u: Transaction)
    requires Wf(l) && Steps(f) && StepsKeep(f) && StepsKeepParties(f)
    requires forall t :: t in us ==> PartiesIndexed(l, t)
    requires PartiesIndexed(l, u)
    requires Replay(f, l, us).error.None?
    ensures PartiesIndexed(Replay(f, l, us).ledger, u)
    decreases |us|
  {
    if us != [] {
      var t := us[0];
      var s := f(l, t);
      assert t in us && s.Ok?;
      KeepsWf(l, s.ledger);
      assert PartiesIndexed(s.ledger, u);
      forall t' | t' in us[1..] ensures PartiesIndexed(s.ledger, t') {
        assert t' in us;
      }
      SweepKeepsParties(f, s.ledger, us[1..], u);
      assert Replay(f, l, us).ledger == Replay(f, s.ledger, us[1..]).ledger;
    }
  }

  /** `g` undoes each successful step of `f` and tells consensus the mirror
      image; when `guarded`, only for transactions whose parties are indexed. */
  ghost predicate Undoes(g: StepFn, f: StepFn, guarded: bool)
  {
    forall l, t :: Wf(l) && (guarded ==> PartiesIndexed(l, t)) && f.requires(l, t) && f(l, t).Ok? ==>
      g.requires(f(l, t).ledger, t) && g(f(l, t).ledger, t) == Ok(l, Flip(f(l, t).note))
  }

  /** A failing step of `f` leaves the ledger as it was; when `guarded`, only
      for transactions whose parties are indexed. */
  ghost predicate FailsCleanly(f: StepFn, guarded: bool)
  {
    forall l, t :: Wf(l) && (guarded ==> PartiesIndexed(l, t)) && f.requires(l, t) && f(l, t).Err? ==>
      f(l, t).ledger == l
  }

  /** Undoing with `g`, in reverse order, every step of a sweep of `f` that
      went through restores the ledger exactly and tells consensus the mirror
      image of what the sweep told it. */
  lemma {:induction false} UndoRestores(f: StepFn, g: StepFn, guarded: bool, l: Ledger, txs: seq<Transaction>)
    requires Wf(l) && Steps(f) && StepsKeep(f) && Steps(g) && Undoes(g, f, guarded)
    requires guarded ==> StepsKeepParties(f) && forall t :: t in txs ==> PartiesIndexed(l, t)
    requires Replay(f, l, txs).error.None?
    ensures var a := Replay(f, l, txs);
      Replay(g, a.ledger, Reverse(txs)) == Sweep(l, Mirror(a.notes), |txs|, None)
    decreases |txs|
  {
    if txs != [] {
      var a := Replay(f, l, txs);
      var s := f(l, txs[0]);
      KeepsWf(l, s.ledger);
      assert txs[0] in txs;
      if guarded {
        forall t | t in txs[1..] ensures PartiesIndexed(s.ledger, t) {
          assert t in txs;
        }
      }
      var a' := Replay(f, s.ledger, txs[1..]);
      UndoRestores(f, g, guarded, s.ledger, txs[1..]);
      assert Reverse(txs) == Reverse(txs[1..]) + [txs[0]];
      ReplayAppend(g, a.ledger, Reverse(txs[1..]), [txs[0]]);
      assert g(s.ledger, txs[0]) == Ok(l, Flip(s.note));
      assert Replay(g, s.ledger, [txs[0]]) == Sweep(l, [Flip(s.note)], 1, None);
      assert a.notes == [s.note] + a'.notes;
      assert Mirror(a.notes) == Mirror(a'.notes) + [Flip(s.note)];
    }
  }

  /** `UndoRestores`, stated as the `catch` of a sweep that went through
      sees it: the undo runs over the first `done` transactions, reversed. */
  lemma UndoRestoresAll(f: StepFn, g: StepFn, guarded: bool, l: Ledger, txs: seq<Transaction>)
    requires Wf(l) && Steps(f) && StepsKeep(f) && Steps(g) && Undoes(g, f, guarded)
    requires guarded ==> StepsKeepParties(f) && forall t :: t in txs ==> PartiesIndexed(l, t)
    requires Replay(f, l, txs).error.None?
    ensures var r := Replay(f, l, txs);
      Replay(g, r.ledger, Reverse(txs[..r.done])) == Sweep(l, Mirror(r.notes), r.done, None)
  {
    UndoRestores(f, g, guarded, l, txs);
    assert txs[..|txs|] == txs;
  }

  /** A sweep of `f` that stops at a failing step, rolled back with `g` over
      the steps that went through, last first, ends on the ledger the sweep
      started from; consensus hears the mirror image of what the sweep told
      it. */
  lemma RollbackRestores(f: StepFn, g: StepFn, guarded: bool, l: Ledger, txs: seq<Transaction>)
    requires Wf(l) && Steps(f) && StepsKeep(f) && Steps(g) && Undoes(g, f, guarded) && FailsCleanly(f, guarded)
    requires guarded ==> StepsKeepParties(f) && forall t :: t in txs ==> PartiesIndexed(l, t)
    requires Replay(f, l, txs).error.Some?
    ensures var r := Replay(f, l, txs);
      Replay(g, r.ledger, Reverse(txs[..r.done])) == Sweep(l, Mirror(r.notes), r.done, None)
  {
    var r := Replay(f, l, txs);
    ReplayStops(f, l, txs);
    var k := r.done;
    var p := Replay(f, l, txs[..k]);
    ReplayKeeps(f, l, txs[..k]);
    KeepsWf(l, p.ledger);
    if guarded {
      assert forall t :: t in txs[..k] ==> t in txs;
      assert txs[k] in txs;
      SweepKeepsParties(f, l, txs[..k], txs[k]);
    }
    assert r.ledger == p.ledger;
    UndoRestores(f, g, guarded, l, txs[..k]);
  }

  // ---------------------------------------------------------------------------
  // The manager's steps

  /** Reverting a transaction keeps every party of the others indexed. */
  ghost predicate RevertKeepsParties(env: Env)
  {
    forall l, c, t, u :: Wf(l) && env.revert(l, c, t).Success? && PartiesIndexed(l, u) ==>
      PartiesIndexed(env.revert(l, c, t).value, u)
  }

  /** Reverting an HTLC claim re-opens its lock: afterwards a wallet holds the
      lock id again. */
  ghost predicate ClaimsReopen(env: Env)
  {
    forall l, c, t :: Wf(l) && IsHtlcClaim(t) && env.revert(l, c, t).Success? && Locks in env.revert(l, c, t).value.indexes ==>
      t.lockId in env.revert(l, c, t).value.indexes[Locks].entries
  }

  /** An apply step that fails leaves the ledger as it was. */
  lemma ApplyStepAtomic(env: Env, c: Option<Block>, l: Ledger, t: Transaction)
    requires Wf(l) && Sound(env)
    ensures StepOf(env, c, false)(l, t).Err? ==> StepOf(env, c, false)(l, t).ledger == l
  {
    StepOfIs(env, c, false, l, t);
    ApplyTransactionAtomic(env, l, c, t);
  }

  /** A revert step whose parties are indexed and which re-opens the lock of
      an HTLC claim leaves the ledger as it was when it fails. */
  lemma RevertStepAtomic(env: Env, c: Option<Block>, l: Ledger, t: Transaction)
    requires Wf(l) && Sound(env) && ClaimsReopen(env) && PartiesIndexed(l, t)
    ensures StepOf(env, c, true)(l, t).Err? ==> StepOf(env, c, true)(l, t).ledger == l
  {
    StepOfIs(env, c, true, l, t);
    RevertTransactionAtomic(env, l, c, t);
  }

  /** A revert step whose parties are indexed keeps every other indexed party
      indexed. */
  lemma RevertStepKeepsParties(env: Env, c: Option<Block>, l: Ledger, t: Transaction, u: Transaction)
    requires Wf(l) && Sound(env) && RevertKeepsParties(env) && PartiesIndexed(l, t) && PartiesIndexed(l, u)
    ensures StepOf(env, c, true)(l, t).Ok? ==> PartiesIndexed(StepOf(env, c, true)(l, t).ledger, u)
  {
    StepOfIs(env, c, true, l, t);
    if RevertTransaction(env, l, c, t).Ok? {
      RevertTransactionParties(env, l, c, t);
    }
  }

  /** The manager's revert step keeps indexed parties indexed, for handlers
      whose `revert` does. */
  lemma RevertStepsKeepParties(env: Env, c: Option<Block>)
    requires Sound(env) && RevertKeepsParties(env)
    ensures StepsKeepParties(StepOf(env, c, true))
  {
    forall l, t, u | Wf(l) && PartiesIndexed(l, t) && PartiesIndexed(l, u) && StepOf(env, c, true).requires(l, t) && StepOf(env, c, true)(l, t).Ok?
      ensures PartiesIndexed(StepOf(env, c, true)(l, t).ledger, u)
    {
      RevertStepKeepsParties(env, c, l, t, u);
    }
  }

  /** The manager's revert step undoes its apply step, under handlers whose
      `revert` undoes `apply` and which index the parties they touch; a
      failing apply step changes nothing. */
  lemma RevertUndoesApplyStep(env: Env, c: Option<Block>)
    requires Sound(env) && RevertUndoesApply(env) && ApplyIndexesParties(env)
    ensures Undoes(StepOf(env, c, true), StepOf(env, c, false), false)
    ensures FailsCleanly(StepOf(env, c, false), false)
  {
    var f, g := StepOf(env, c, false), StepOf(env, c, true);
    forall l, t | Wf(l) && f.requires(l, t) && f(l, t).Ok?
      ensures g.requires(f(l, t).ledger, t) && g(f(l, t).ledger, t) == Ok(l, Flip(f(l, t).note))
    {
      StepOfIs(env, c, false, l, t);
      StepOfIs(env, c, true, f(l, t).ledger, t);
      RevertMirrorsApply(env, l, c, t);
    }
    forall l, t | Wf(l) && f.requires(l, t) && f(l, t).Err?
      ensures f(l, t).ledger == l
    {
      ApplyStepAtomic(env, c, l, t);
    }
  }

  /** The manager's apply step undoes its revert step for transactions whose
      parties are indexed, under handlers whose `apply` undoes `revert`, whose
      `revert` keeps parties indexed and re-opens the locks of HTLC claims; a
      failing revert step of such a transaction changes nothing. */
  lemma ApplyUndoesRevertStep(env: Env, c: Option<Block>)
    requires Sound(env) && ApplyUndoesRevert(env) && RevertKeepsParties(env) && ClaimsReopen(env)
    ensures Undoes(StepOf(env, c, false), StepOf(env, c, true), true)
    ensures FailsCleanly(StepOf(env, c, true), true)
    ensures StepsKeepParties(StepOf(env, c, true))
  {
    var f, g := StepOf(env, c, true), StepOf(env, c, false);
    forall l, t | Wf(l) && PartiesIndexed(l, t) && f.requires(l, t) && f(l, t).Ok?
      ensures g.requires(f(l, t).ledger, t) && g(f(l, t).ledger, t) == Ok(l, Flip(f(l, t).note))
    {
      StepOfIs(env, c, true, l, t);
      StepOfIs(env, c, false, f(l, t).ledger, t);
      ApplyMirrorsRevert(env, l, c, t);
    }
    forall l, t | Wf(l) && PartiesIndexed(l, t) && f.requires(l, t) && f(l, t).Err?
      ensures f(l, t).ledger == l
    {
      RevertStepAtomic(env, c, l, t);
    }
    RevertStepsKeepParties(env, c);
  }

  /** The manager's loop over `txs` with `applyTransaction` (or
      `revertTransaction`) while `currentBlock` is `c`. */
  function Run(env: Env, c: Option<Block>, revert: bool, l: Ledger, txs: seq<Transaction>): (r: Sweep)
    requires Valid(l) && Sound(env)
    ensures Keeps(l, r.ledger)
    ensures r.done <= |txs| && |r.notes| == r.done
    ensures r.error.None? <==> r.done == |txs|
  {
    var f := StepOf(env, c, revert);
    ReplayKeeps(f, l, txs);
    Replay(f, l, txs)
  }
}

=== FILE: transactions.dfy ===
/** Applying and reverting a single transaction: the handler registry, the
    HTLC-claim lock lookup, the sender and recipient lookups and the
    notification to consensus, in the order the manager performs them. */
module Transactions {
  import opened Results
  import opened Wallets
  import opened WalletIndexes
  import opened Ledgers
  import opened Lookups

  /** `TransactionType.HtlcClaim` in `TransactionTypeGroup.Core`. */
  const HtlcClaim: nat := 9
  const CoreGroup: nat := 1

  /** The transaction fields the manager reads; `lockId` is
      `asset.claim.lockTransactionId` and matters for HTLC claims only. */
  datatype Transaction = Transaction(
    id: string,
    kind: nat,
    typeGroup: nat,
    senderPublicKey: string,
    recipientId: string,
    lockId: string)

  datatype Block = Block(
    id: string,
    height: nat,
    generatorPublicKey: string,
    reward: int,
    totalFee: int,
    transactions: seq<Transaction>)

  predicate IsHtlcClaim(t: Transaction)
  {
    t.kind == HtlcClaim && t.typeGroup == CoreGroup
  }

  /** One `consensus.addTransaction(sender, recipient, data, lockWallet,
      lockTransaction, revert)` call. */
  datatype Notification = Notification(
    sender: Option<Handle>,
    recipient: Option<Handle>,
    transaction: Transaction,
    lockWallet: Option<Handle>,
    lockTransaction: Option<LockRecord>,
    revert: bool)

  function Flip(n: Notification): Notification
  {
    n.(revert := !n.revert)
  }

  /** The notifications an undo produces for `ns`: last first, flag flipped. */
  function Mirror(ns: seq<Notification>): (r: seq<Notification>)
    ensures |r| == |ns|
    ensures forall i :: 0 <= i < |ns| ==> r[i] == Flip(ns[|ns| - 1 - i])
  {
    if ns == [] then [] else Mirror(ns[1..]) + [Flip(ns[0])]
  }

  /** The collaborators the manager calls but whose code is not modelled:
      address derivation, the handler registry (`known`) with each handler's
      `apply` and `revert`, and `Wallet.applyBlock` (`credit`: the wallet after
      it, `None` when it returned `false` and left the wallet alone, a
      `Failure` when it threw). Handlers see the current block. */
  datatype Env = Env(
    derive: string -> Address,
    known: (nat, nat) -> bool,
    apply: (Ledger, Option<Block>, Transaction) -> Result<Ledger, string>,
    revert: (Ledger, Option<Block>, Transaction) -> Result<Ledger, string>,
    credit: (Wallet, Block) -> Result<Option<Wallet>, string>)

  /** The ledger invariant every state of a running manager keeps. */
  ghost predicate Wf(l: Ledger)
  {
    Valid(l) && Ordered(l) && Standard(l)
  }

  ghost predicate Sound(env: Env)
  {
    && (forall l, c, t :: Valid(l) && env.apply(l, c, t).Success? ==> Keeps(l, env.apply(l, c, t).value))
    && (forall l, c, t :: Valid(l) && env.revert(l, c, t).Success? ==> Keeps(l, env.revert(l, c, t).value))
  }

  /** The outcome of one transaction step: the state after it, and either the
      notification sent or the error thrown. */
  datatype TxResult = Ok(ledger: Ledger, note: Notification) | Err(ledger: Ledger, error: Error)

  /** The HTLC lock a claim refers to: the wallet holding the lock id, and the
      lock record (`undefined` when that wallet no longer lists it). A claim
      whose lock no wallet holds dereferences `undefined`. */
  function ResolveLock(l: Ledger, t: Transaction): (r: Result<(Option<Handle>, Option<LockRecord>), Error>)
    requires Valid(l)
    ensures !IsHtlcClaim(t) ==> r == Success((None, None))
    ensures IsHtlcClaim(t) && Locks !in l.indexes ==> r == Failure(IndexNotFound(Locks))
    ensures IsHtlcClaim(t) && Locks in l.indexes && t.lockId !in l.indexes[Locks].entries ==>
      r == Failure(UnresolvedWallet(t.lockId))
    ensures IsHtlcClaim(t) && Locks in l.indexes && t.lockId in l.indexes[Locks].entries ==>
      var h := l.indexes[Locks].entries[t.lockId];
      h in l.wallets && r == Success((Some(h), Lookup(l.wallets[h].locks, t.lockId)))
  {
    if !IsHtlcClaim(t) then Success((None, None))
    else
      var found :- FindByIndex(l, [Locks], t.lockId);
      assert found.Some? ==> StopsAt(l, [Locks], t.lockId, 0);
      if found.None? then Failure(UnresolvedWallet(t.lockId))
      else Success((found, Lookup(l.wallets[found.value].locks, t.lockId)))
  }

  /** The sender and recipient wallets are already indexed: looking them up
      creates nothing. */
  ghost predicate PartiesIndexed(l: Ledger, t: Transaction)
  {
    && PublicKeys in l.indexes && Addresses in l.indexes
    && (t.senderPublicKey == "" || t.senderPublicKey in l.indexes[PublicKeys].entries)
    && (t.recipientId == "" || t.recipientId in l.indexes[Addresses].entries)
  }

  /** `applyTransaction(transaction)`: the handler is looked up, the lock of an
      HTLC claim is resolved BEFORE the handler runs, the sender and recipient
      AFTER it, and consensus is told with `revert = false`. */
  function ApplyTransaction(env: Env, l: Ledger, current: Option<Block>, t: Transaction): (r: TxResult)
    requires Valid(l) && Sound(env)
    ensures Keeps(l, r.ledger)
    ensures !env.known(t.kind, t.typeGroup) ==> r == Err(l, UnknownTransactionType(t.kind, t.typeGroup))
    ensures r.Ok? ==>
      && r.note.transaction == t && !r.note.revert
      && ResolveLock(l, t) == Success((r.note.lockWallet, r.note.lockTransaction))
  {
    if !env.known(t.kind, t.typeGroup) then Err(l, UnknownTransactionType(t.kind, t.typeGroup))
    else
      match ResolveLock(l, t)
      case Failure(e) => Err(l, e)
      case Success(lock) =>
        match env.apply(l, current, t)
        case Failure(reason) => Err(l, HandlerFailed(reason))
        case Success(l1) =>
          match FindByPublicKey(l1, env.derive, t.senderPublicKey)
          case Failure(e) => Err(l1, e)
          case Success(sender) =>
            match FindByAddress(sender.ledger, t.recipientId)
            case Failure(e) => Err(sender.ledger, e)
            case Success(recipient) =>
              Ok(recipient.ledger, Notification(sender.wallet, recipient.wallet, t, lock.0, lock.1, false))
  }

  /** `revertTransaction(transaction)`: the handler is looked up, the sender and
      recipient are resolved BEFORE the handler reverts, the lock of an HTLC
      claim AFTER it, and consensus is told with `revert = true`. */
  function RevertTransaction(env: Env, l: Ledger, current: Option<Block>, t: Transaction): (r: TxResult)
    requires Valid(l) && Sound(env)
    ensures Keeps(l, r.ledger)
    ensures !env.known(t.kind, t.typeGroup) ==> r == Err(l, UnknownTransactionType(t.kind, t.typeGroup))
    ensures r.Ok? ==> r.note.transaction == t && r.note.revert
    ensures r.Ok? ==> ResolveLock(r.ledger, t) == Success((r.note.lockWallet, r.note.lockTransaction))
  {
    if !env.known(t.kind, t.typeGroup) then Err(l, UnknownTransactionType(t.kind, t.typeGroup))
    else
      match FindByPublicKey(l, env.derive, t.senderPublicKey)
      case Failure(e) => Err(l, e)
      case Success(sender) =>
        match FindByAddress(sender.ledger, t.recipientId)
        case Failure(e) => Err(sender.ledger, e)
        case Success(recipient) =>
          match env.revert(recipient.ledger, current, t)
          case Failure(reason) => Err(recipient.ledger, HandlerFailed(reason))
          case Success(l1) =>
            match ResolveLock(l1, t)
            case Failure(e) => Err(l1, e)
            case Success(lock) =>
              Ok(l1, Notification(sender.wallet, recipient.wallet, t, lock.0, lock.1, true))
  }

  /** With the standard indexes registered, a transaction that cannot be
      applied leaves the ledger as it was, and it fails exactly when its type is
      unknown, its HTLC lock cannot be resolved, or its handler refuses it. */
  lemma ApplyTransactionAtomic(env: Env, l: Ledger, c: Option<Block>, t: Transaction)
    requires Wf(l) && Sound(env)
    ensures var r := ApplyTransaction(env, l, c, t);
      && (r.Err? ==> r.ledger == l)
      && (r.Ok? <==> env.known(t.kind, t.typeGroup) && ResolveLock(l, t).Success? && env.apply(l, c, t).Success?)
      && (env.known(t.kind, t.typeGroup) && ResolveLock(l, t).Success? && env.apply(l, c, t).Failure? ==>
            r.error == HandlerFailed(env.apply(l, c, t).error))
  {
  }

  /** The sender and recipient of an applied transaction are looked up on the
      state the handler left; when the handler indexed them, the lookups create
      nothing. */
  lemma ApplyTransactionParties(env: Env, l: Ledger, c: Option<Block>, t: Transaction)
    requires Valid(l) && Sound(env)
    requires ApplyTransaction(env, l, c, t).Ok?
    ensures env.apply(l, c, t).Success?
    ensures var r := ApplyTransaction(env, l, c, t);
      var after := env.apply(l, c, t).value;
      PartiesIndexed(after, t) ==>
        && r.ledger == after
        && r.note.sender == Lookup(after.indexes[PublicKeys].entries, t.senderPublicKey)
        && r.note.recipient == Lookup(after.indexes[Addresses].entries, t.recipientId)
  {
  }

  /** The sender and recipient of a reverted transaction are looked up on the
      state before the handler runs; when they are already indexed, a refusing
      handler leaves the ledger as it was. */
  lemma RevertTransactionParties(env: Env, l: Ledger, c: Option<Block>, t: Transaction)
    requires Valid(l) && Sound(env) && PartiesIndexed(l, t) && env.known(t.kind, t.typeGroup)
    ensures var r := RevertTransaction(env, l, c, t);
      && (env.revert(l, c, t).Failure? ==> r == Err(l, HandlerFailed(env.revert(l, c, t).error)))
      && (r.Ok? ==>
            && env.revert(l, c, t) == Success(r.ledger)
            && r.note.sender == Lookup(l.indexes[PublicKeys].entries, t.senderPublicKey)
            && r.note.recipient == Lookup(l.indexes[Addresses].entries, t.recipientId))
  {
  }

  /** With the standard indexes registered and the parties indexed, a
      transaction that cannot be reverted leaves the ledger as it was, with one
      exception: an HTLC claim whose lock no wallet holds once the handler has
      reverted fails AFTER the handler's changes took effect. */
  lemma RevertTransactionAtomic(env: Env, l: Ledger, c: Option<Block>, t: Transaction)
    requires Wf(l) && Sound(env) && PartiesIndexed(l, t)
    ensures var r := RevertTransaction(env, l, c, t);
      r.Err? ==>
        || r.ledger == l
        || (&& IsHtlcClaim(t) && r.error == UnresolvedWallet(t.lockId)
            && env.revert(l, c, t) == Success(r.ledger)
            && t.lockId !in r.ledger.indexes[Locks].entries)
  {
  }

  /** The other exception: the sender and recipient are looked up before the
      handler reverts, so a party that was not indexed gets its wallet and its
      index entries, and these stay when the handler refuses. The lookups change
      the ledger exactly when some party was not indexed. */
  lemma RevertTransactionKeepsLookups(env: Env, l: Ledger, c: Option<Block>, t: Transaction)
    requires Wf(l) && Sound(env) && env.known(t.kind, t.typeGroup)
    ensures FindByPublicKey(l, env.derive, t.senderPublicKey).Success?
    ensures var s := FindByPublicKey(l, env.derive, t.senderPublicKey).value.ledger;
      && FindByAddress(s, t.recipientId).Success?
      && var p := FindByAddress(s, t.recipientId).value.ledger;
      && (p == l <==> PartiesIndexed(l, t))
      && (env.revert(p, c, t).Failure? ==>
            RevertTransaction(env, l, c, t) == Err(p, HandlerFailed(env.revert(p, c, t).error)))
  {
    StandardNamesDistinct();
    if t.senderPublicKey != "" && t.senderPublicKey !in l.indexes[PublicKeys].entries {
      FindByPublicKeyAttaches(l, env.derive, t.senderPublicKey);
    }
  }

  /** `handler.revert` undoes `handler.apply` exactly. */
  ghost predicate RevertUndoesApply(env: Env)
  {
    forall l, c, t :: Wf(l) && env.apply(l, c, t).Success? ==> env.revert(env.apply(l, c, t).value, c, t) == Success(l)
  }

  /** `handler.apply` undoes `handler.revert` exactly. */
  ghost predicate ApplyUndoesRevert(env: Env)
  {
    forall l, c, t :: Wf(l) && env.revert(l, c, t).Success? ==> env.apply(env.revert(l, c, t).value, c, t) == Success(l)
  }

  /** `handler.apply` leaves the sender and recipient indexed (it looks them up
      itself), so the manager's own lookups afterwards create nothing. */
  ghost predicate ApplyIndexesParties(env: Env)
  {
    forall l, c, t :: Wf(l) && env.apply(l, c, t).Success? ==> PartiesIndexed(env.apply(l, c, t).value, t)
  }

  /** Handlers whose `revert` undoes `apply` exactly never allocate in `apply`,
      and when `apply` indexes the parties the manager's lookups allocate
      nothing either: results resting on these hypotheses say nothing about a
      transaction that creates a wallet. */
  lemma UndoableApplyCreatesNoWallet(env: Env, l: Ledger, c: Option<Block>, t: Transaction)
    requires Wf(l) && Sound(env) && RevertUndoesApply(env) && ApplyIndexesParties(env)
    requires ApplyTransaction(env, l, c, t).Ok?
    ensures env.apply(l, c, t).Success?
    ensures env.apply(l, c, t).value.wallets.Keys == l.wallets.Keys
    ensures ApplyTransaction(env, l, c, t).ledger.wallets.Keys == l.wallets.Keys
  {
    ApplyTransactionParties(env, l, c, t);
    var after := env.apply(l, c, t).value;
    assert Keeps(l, after);
    assert env.revert(after, c, t) == Success(l);
    assert Keeps(after, l);
  }

  /** Reverting a transaction right after applying it restores the ledger and
      sends the same notification with the flag flipped: the lock is resolved
      on the state before `apply` both times, and the parties on the state after
      it both times. */
  lemma RevertMirrorsApply(env: Env, l: Ledger, c: Option<Block>, t: Transaction)
    requires Wf(l) && Sound(env) && RevertUndoesApply(env) && ApplyIndexesParties(env)
    requires ApplyTransaction(env, l, c, t).Ok?
    ensures var a := ApplyTransaction(env, l, c, t);
      RevertTransaction(env, a.ledger, c, t) == Ok(l, Flip(a.note))
  {
    var a := ApplyTransaction(env, l, c, t);
    var after := env.apply(l, c, t).value;
    assert PartiesIndexed(after, t);
    ApplyTransactionParties(env, l, c, t);
    assert env.revert(after, c, t) == Success(l);
    RevertTransactionParties(env, after, c, t);
  }

  /** Applying a transaction right after reverting it restores the ledger and
      sends the same notification with the flag flipped, provided the parties
      were indexed before the revert. */
  lemma ApplyMirrorsRevert(env: Env, l: Ledger, c: Option<Block>, t: Transaction)
    requires Wf(l) && Sound(env) && ApplyUndoesRevert(env) && PartiesIndexed(l, t)
    requires RevertTransaction(env, l, c, t).Ok?
    ensures var v := RevertTransaction(env, l, c, t);
      ApplyTransaction(env, v.ledger, c, t) == Ok(l, Flip(v.note))
  {
    var v := RevertTransaction(env, l, c, t);
    RevertTransactionParties(env, l, c, t);
    assert env.apply(v.ledger, c, t) == Success(l);
    ApplyTransactionParties(env, v.ledger, c, t);
  }
}

=== FILE: wallet.dfy ===
/** One account's state, as far as the wallet manager reads it. The loosely
    typed attribute bag of the source is a record of optional categories. */
module Wallets {
  import opened Results

  /** An address derived from a public key; address derivation never yields
      the empty string. */
  type Address = a: string | a != [] witness "A"

  /** The `delegate` attribute: `delegate.username`, `delegate.voteBalance`,
      `delegate.resigned`. */
  datatype DelegateInfo = DelegateInfo(username: string, voteBalance: int, resigned: bool)

  /** The data of an open HTLC lock, stored under its lock id in `htlc.locks`. */
  datatype LockRecord = LockRecord(amount: int, recipientId: string)

  /** `publicKey == ""` stands for a wallet whose public key is not yet known. */
  datatype Wallet = Wallet(
    address: string,
    publicKey: string,
    nonce: nat,
    balance: int,
    delegate: Option<DelegateInfo>,
    vote: Option<string>,
    locks: map<string, LockRecord>,
    hashes: set<string>)

  /** `new Wallet(address)`: zero balance and nonce, no public key, no attributes. */
  function NewWallet(address: string): Wallet
  {
    Wallet(address, "", 0, 0, None, None, map[], {})
  }

  predicate IsDelegate(w: Wallet)
  {
    w.delegate.Some?
  }

  predicate IsResigned(w: Wallet)
  {
    w.delegate.Some? && w.delegate.value.resigned
  }

  /** `hasVoted()`: the `vote` attribute is present. */
  predicate HasVoted(w: Wallet)
  {
    w.vote.Some?
  }
}

=== FILE: wallet_index.dfy ===
/** A named wallet index: a map from lookup key to a wallet handle, extended
    by an indexer that derives a wallet's keys from its attributes. */
module WalletIndexes {
  import opened Results
  import opened Wallets

  /** A wallet reference: a handle into the manager's wallet arena. Several
      index entries holding the same handle alias the same wallet. */
  type Handle = nat

  const Addresses: string := "addresses"
  const PublicKeys: string := "publicKeys"
  const Usernames: string := "usernames"
  const Resignations: string := "resignations"
  const Locks: string := "locks"
  const Ipfs: string := "ipfs"

  /** The six indexes the manager registers on construction, in that order. */
  const StandardNames: seq<string> := [Addresses, PublicKeys, Usernames, Resignations, Locks, Ipfs]

  /** The indexer callbacks. The six standard ones are spelled out; any other
      registered indexer is a key derivation, which sets each key it derives
      to the wallet and nothing else. */
  datatype Indexer =
    | AddressIndexer
    | PublicKeyIndexer
    | UsernameIndexer
    | ResignationIndexer
    | LockIndexer
    | IpfsIndexer
    | CustomIndexer(keysOf: Wallet -> set<string>)

  /** The keys an indexer sets for a wallet. */
  function KeysOf(ix: Indexer, w: Wallet): set<string>
  {
    match ix
    case AddressIndexer => if w.address != "" then {w.address} else {}
    case PublicKeyIndexer => if w.publicKey != "" then {w.publicKey} else {}
    case UsernameIndexer => if IsDelegate(w) then {w.delegate.value.username} else {}
    case ResignationIndexer => if IsResigned(w) then {w.delegate.value.username} else {}
    case LockIndexer => w.locks.Keys
    case IpfsIndexer => w.hashes
    case CustomIndexer(f) => f(w)
  }

  datatype WalletIndex = WalletIndex(indexer: Indexer, entries: map<string, Handle>)

  function EmptyIndex(ix: Indexer): WalletIndex
  {
    WalletIndex(ix, map[])
  }

  /** `index(wallet)`: the indexer sets each derived key to the wallet. Stale
      entries are never removed. */
  function IndexWallet(wi: WalletIndex, w: Wallet, h: Handle): (r: WalletIndex)
    ensures r.indexer == wi.indexer
    ensures forall k :: k in KeysOf(wi.indexer, w) ==> k in r.entries && r.entries[k] == h
    ensures forall k :: k !in KeysOf(wi.indexer, w) ==> Lookup(r.entries, k) == Lookup(wi.entries, k)
    ensures r.entries.Keys == wi.entries.Keys + KeysOf(wi.indexer, w)
  {
    var keys := KeysOf(wi.indexer, w);
    wi.(entries := wi.entries + map k | k in keys :: h)
  }

  /** Running an indexer twice on an unchanged wallet adds nothing. */
  lemma IndexWalletIdempotent(wi: WalletIndex, w: Wallet, h: Handle)
    ensures IndexWallet(IndexWallet(wi, w, h), w, h) == IndexWallet(wi, w, h)
  {
    var once := IndexWallet(wi, w, h);
    var twice := IndexWallet(once, w, h);
    assert twice.entries.Keys == once.entries.Keys;
    forall k | k in once.entries
      ensures twice.entries[k] == once.entries[k]
    {
      if k !in KeysOf(wi.indexer, w) {
        assert Lookup(twice.entries, k) == Lookup(once.entries, k);
      }
    }
  }

  /** What each standard indexer sets: the address and the public key when
      present, the username only for delegates, the resignation only for
      resigned delegates, one entry per lock id and one per IPFS hash; an index
      whose indexer derives nothing is left as it was. */
  lemma IndexWalletStandard(wi: WalletIndex, w: Wallet, h: Handle)
    ensures var r := IndexWallet(wi, w, h);
      && (wi.indexer.AddressIndexer? ==>
            (w.address != "" ==> r.entries == wi.entries[w.address := h]) && (w.address == "" ==> r == wi))
      && (wi.indexer.PublicKeyIndexer? ==>
            (w.publicKey != "" ==> r.entries == wi.entries[w.publicKey := h]) && (w.publicKey == "" ==> r == wi))
      && (wi.indexer.UsernameIndexer? ==>
            (IsDelegate(w) ==> r.entries == wi.entries[w.delegate.value.username := h]) && (!IsDelegate(w) ==> r == wi))
      && (wi.indexer.ResignationIndexer? ==>
            (IsResigned(w) ==> r.entries == wi.entries[w.delegate.value.username := h]) && (!IsResigned(w) ==> r == wi))
      && (wi.indexer.LockIndexer? ==>
            r.entries.Keys == wi.entries.Keys + w.locks.Keys && (forall id :: id in w.locks ==> r.entries[id] == h))
      && (wi.indexer.IpfsIndexer? ==>
            r.entries.Keys == wi.entries.Keys + w.hashes && (forall hash :: hash in w.hashes ==> r.entries[hash] == h))
  {
  }

  /** The six standard names are pairwise different. */
  lemma StandardNamesDistinct()
    ensures forall i, j :: 0 <= i < j < |StandardNames| ==> StandardNames[i] != StandardNames[j]
    ensures Addresses != PublicKeys && Addresses != Usernames && Addresses != Resignations
    ensures Addresses != Locks && Addresses != Ipfs
    ensures PublicKeys != Usernames && PublicKeys != Resignations && PublicKeys != Locks && PublicKeys != Ipfs
    ensures Usernames != Resignations && Usernames != Locks && Usernames != Ipfs
    ensures Resignations != Locks && Resignations != Ipfs && Locks != Ipfs
  {
    assert Addresses[0] != Usernames[0];
    assert |Addresses| == 9 && |PublicKeys| == 10 && |Usernames| == 9;
    assert |Resignations| == 12 && |Locks| == 5 && |Ipfs| == 4;
  }
}
